=== FILE: README.md ===
# A verified model of the GitHub profile-card updater

`update_profile.py` gathers statistics about one GitHub account through the
GraphQL API and writes them into two SVG cards. This project models and
proves the parts of it that carry logic:

- **The heavy scan** (`heavy.dfy`, `heavy_facts.dfy`, `heavy_runs.dfy`,
  `cache_format.dfy`, `history.dfy`). This is the incremental commit / lines-of-code cache.
  - The cache file holds a five-line header, then one line per owned
    repository: `sha256(name) totalCommits myCommits additions deletions`.
  - Line *i* belongs to the *i*-th listed repository, and its fingerprint
    witnesses that.
  - For each repository, the cheap commit-count probe decides between reusing
    the cached counts and rescanning the commit history.
  - A fingerprint mismatch restarts the pass. `RECURSION_GUARD` bounds the
    restarts.
  - The file and `RECURSION_GUARD` are the fields of the class
    `Heavy.ProfileCache`. Its methods follow `init_cache_if_needed`,
    `write_cache_header` and `heavy_stats` step by step. Each is proved equal
    to a function of the old state (`Heavy.Init`, `Heavy.HeavyRun`), and the
    lemmas in `HeavyFacts` are stated about those functions.
- **Paginated aggregation** (`paging.dfy`). `get_repos_and_stars` and
  `collect_repo_full_names` are cursor loops over a sequence of pages.
- **The retry policy of `gql`** (`retry.dfy`). It is a loop over the outcomes
  of successive attempts.
- **Text helpers** (`text.dfy`). These are `truncate_text`, `approx_text_px`
  and the greedy word wrap of `wrap_tagline`.
- **Python built-ins** (`strings.dfy`). The code relies on `str.split()`,
  `strip()`, `' '.join`, `int()`, `f"{n}"` and `lower()`. Whitespace is the
  ASCII set `str.isspace()` accepts: 0x09-0x0D, 0x1C-0x1F and the space.

Parameters stand in for the outside world:
- `hash: string -> Digest` is SHA-256 of a repository name. A `Digest` is 64
  lowercase hexadecimal characters.
- `remote: string -> RepoRemote` is what the API answers about a repository:
  the probed commit total and the history pages.
- `outcome: nat -> Attempt` is the result of the n-th `gql` attempt.
- Sequences of `Page` values are the pages a cursor loop receives.
- `generated` is the clock reading written into the cache header.

In two places the code behaves differently from what its own comments and
structure suggest. The model follows the code:
- Every failure kind of `gql` is retried while attempts remain. The code
  singles out the 502 as `# transient` and has a `# Rate limit detection`
  branch, which suggests that only those two are retried. But the
  `RuntimeError`s raised for other non-200 statuses and other GraphQL errors
  are raised inside the `try`. The generic `except Exception` handler catches
  them and retries too.
- A fingerprint mismatch does not rebuild the cache, although the restart
  under `# prevent endless recursion` only helps if it does. See "## Findings".

## Model

| member | source | states |
|---|---|---|
| `Text.TruncateText` | update_profile.py:523-528 | Text no longer than the limit comes back unchanged. Longer text becomes its prefix plus '…', exactly `max_chars` long, or the single '…' when `max_chars <= 1`. For `max_chars >= 1`, the result equals the text if and only if the text fits. |
| `Text.ApproxTextPx` | update_profile.py:530-531 | Defines the width estimate, 9 pixels per character. It has no ensures of its own. `Text.TextPxJoin` and `Text.FitsByChars` state its additivity over a joining space and its equivalence with a character limit. |
| `Text.TextPxJoin` | update_profile.py:635-636 | The estimated width of two texts joined by a space is the sum of their widths plus the width of one character. So a candidate line grows by exactly one character width plus the word's width. |
| `Text.FitsByChars` | update_profile.py:628-636 | A text fits `max_w` pixels if and only if it has at most `max_w // 9` characters. |
| `Text.WrapWords` | update_profile.py:631-643 | The greedy loop over a nonempty list of words returns at least one line. Joined with single spaces, the lines give back the words in order. Every line fits or is a single word. No line could also have taken the next line's first word. |
| `Text.WrapTagline` | update_profile.py:613-643 | Nothing is wrapped if and only if `max_w <= 0`, or the stripped text is empty, or it already fits. Otherwise the result is a nonempty list of lines. Joined with single spaces, the lines give back the words of the stripped text in order. Every line fits or is a single word. No line could also have taken the next line's first word. |
| `Retry.FailureOf` | update_profile.py:113-143 | Classifies a failed attempt. A network error stays a network error and a non-200 status (a 502 included) keeps its code. The JSON error happens exactly for a status-200 answer whose body is not JSON. The GraphQL failure happens exactly for a status-200 JSON answer with a nonempty errors block, and its message is the messages of that block joined by `' \| '`. |
| `Retry.Gql` | update_profile.py:103-147 | With `MAX_RETRIES <= 0` no attempt is made and the "failed without exception" error is raised. Otherwise at most `MAX_RETRIES` attempts are made, and every attempt before the last one failed. A success returns the data of the first attempt with status 200 and no errors. A failure means all `MAX_RETRIES` attempts failed, and the last attempt's error is raised. |
| `Paging.PagesRead` | update_profile.py:205-214 | The loop reads pages up to and including the first one without a next page. |
| `Paging.StarsOfPages` | update_profile.py:209-210 | The stars summed page by page equal the stars summed over all edges of those pages. |
| `Paging.AddStars` | update_profile.py:209-210 | The loop over one page's edges adds exactly the stars of those repositories. |
| `Paging.AppendNames` | update_profile.py:290-291 | The loop over one page's edges appends exactly those names, in order, to the names collected so far. |
| `Paging.GetReposAndStars` | update_profile.py:180-238 | Stars are summed over every edge of every page read. The owned and contributed counts are the `totalCount` of the last page read. |
| `Paging.CollectRepoFullNames` | update_profile.py:271-295 | The names are the edges of the pages read, concatenated in page order. |
| `History.GetRepoCommitTotal` | update_profile.py:297-315 | The probe is 0 exactly when there is no default branch or the branch has no commits. Otherwise it is the branch's `totalCount`. |
| `History.Mine` | update_profile.py:355-358 | Keeps only the commits attributed to the user, and never more than there were. |
| `History.MineMembers` | update_profile.py:355 | A commit is counted if and only if its author has a GitHub user whose login equals `USER_NAME`, ignoring case. |
| `History.MineAppend` | update_profile.py:344-358 | Attribution over consecutive pages is the attribution of each page, concatenated. |
| `History.NothingMine` | update_profile.py:355 | Commits without a linked user, or by someone else, add nothing. |
| `History.OneAuthoredCommit` | tests/heavy_test.py:70-80 | A history whose single user commit has +10/-2 yields a tally of one commit with those additions and deletions. |
| `History.CreditPage` | update_profile.py:353-358 | The loop over one page's commits extends the counters of the commits seen so far. Afterwards the counters equal the number, additions and deletions of the user's commits among the commits seen plus this page. |
| `History.ScanRepoHistory` | update_profile.py:317-362 | Returns (0,0,0,0) without paging when the probe is 0. Otherwise it returns the probed total, the number of the user's commits on the pages walked, and their summed additions and deletions. The walk stops at a page without a default branch or without a next page. |
| `History.ScanTally` | update_profile.py:317-362 | Defines the tally of `scan_repo_history`: zeros when the probe is 0, otherwise the probed total and the user's commits, additions and deletions on the pages walked. It has no ensures of its own; `History.ScanRepoHistory` is proved equal to it, and `History.MineMembers` and `History.MineAppend` state what it counts. |
| `CacheFormat.Header` | update_profile.py:260-269 | The header is exactly `CACHE_COMMENT_LINES` (5) lines, naming the user and the generation time. |
| `CacheFormat.FormatEntries` | update_profile.py:409 | One written line per entry, in order. |
| `CacheFormat.FormatEntry` | update_profile.py:409 | Defines the written line: the fingerprint and the four numbers in decimal, separated by single spaces. It has no ensures of its own; `CacheFormat.FieldsOfEntry` and `CacheFormat.EntryReadBack` state what it writes. |
| `CacheFormat.FieldsOfEntry` | update_profile.py:387 | `split()` of a written line gives its five fields: the fingerprint and the four decimal numbers. |
| `CacheFormat.EntryReadBack` | update_profile.py:387-409 | Every line written for an entry parses back to that same entry. |
| `CacheFormat.ZeroLineIsEntry` | update_profile.py:246-247 | The fresh line `sha256 0 0 0 0` is the line of an all-zero entry. |
| `CacheFormat.RepoLinesAfterHeader` | update_profile.py:252 | Behind a full header, `lines[5:]` is exactly the body and `lines[:5]` is the header. |
| `CacheFormat.RepoLinesReplaced` | update_profile.py:415 | Writing `lines[:5]` plus as many new lines as there were repository lines keeps the first five lines, and the repository lines become the new ones. |
| `CacheFormat.ParseEntriesLines` | update_profile.py:387-403 | Reading the repository lines succeeds with one entry per line, each the parse of its own line. |
| `CacheFormat.EntriesReadBack` | update_profile.py:409-415 | A body written from entries reads back to exactly those entries. |
| `Heavy.ZeroLines` | update_profile.py:244-247 | One fresh line per repository, in listing order. |
| `Heavy.InitLines` | update_profile.py:241-258 | Afterwards there is one repository line per listed repository. When forced, when the file is absent, or when the count differs, the file becomes the header plus one zero line per repository. Otherwise it is left untouched. |
| `Heavy.RepoStep` | update_profile.py:386-409 | A failed step never carries the guard error, which only the pass raises. |
| `Heavy.RepoStepOutcome` | update_profile.py:386-409 | The loop body succeeds exactly when the line has five fields, the name has one '/', the fingerprint matches, the stored total is a number, and the stored counts are numbers whenever they are reused. A mismatch happens exactly when the line has five fields, the name one '/', and the fingerprint differs. A line without five fields, a name without exactly one '/' and a number `int()` rejects each give their own error. A new entry carries the expected fingerprint and the freshly probed total. When the stored total equals the probe, the stored counts are reused. Otherwise the rescanned tally is used. |
| `Heavy.Pass` | update_profile.py:386-413 | The loop over repositories in listing order. It stops at the first malformed line or mismatch, and its failures are never the guard error. |
| `Heavy.HeavyRun` | update_profile.py:366-417 | Defines `heavy_stats` on values: initialise, run the pass, then return the sums and write the file, raise, or restart under the guard. It has no ensures of its own; the whole-run behaviour is stated by `Heavy.HeavyRunDone`, `Heavy.HeavyRunFails`, `Heavy.HeavyRunRetry` and the `HeavyFacts` and `HeavyRuns` lemmas. |
| `Heavy.PassStops` | update_profile.py:388-395 | A pass that stopped at repository *i* has the same outcome as the whole loop. |
| `Heavy.PassNext` | update_profile.py:386-413 | A pass that has not stopped extends by exactly the outcome of the next repository's step. |
| `Heavy.HeavyRunDone` | update_profile.py:411-417 | After a finished pass, the run returns the sums and writes `lines[:5]` plus the new lines. |
| `Heavy.HeavyRunFails` | update_profile.py:388-395 | After a failed pass, or a mismatch with the guard above 1, the run raises and keeps the initialised file. |
| `Heavy.HeavyRunRetry` | update_profile.py:390-395 | After a mismatch with the guard at most 1, the run restarts from the re-initialised file with the guard raised by one. |
| `Heavy.ProfileCache.constructor` | update_profile.py:364 | A new state has the given file and `RECURSION_GUARD` 0. |
| `Heavy.ProfileCache.WriteCacheHeader` | update_profile.py:260-269 | The file is created and holds the header only. The guard is unchanged. |
| `Heavy.ProfileCache.AppendZeroLines` | update_profile.py:244-247 | Appends one `sha256(name) 0 0 0 0` line per repository, in order. Nothing else changes. |
| `Heavy.ProfileCache.InitCacheIfNeeded` | update_profile.py:241-258 | The new state is `Init` of the old one. |
| `Heavy.ProfileCache.ReconcileRepo` | update_profile.py:387-409 | The loop body for one repository computes exactly `RepoStep`: the fingerprint check, then reuse or rescan. The returned `fromCache` (the code's `from_cache`) holds exactly when the line gets through and its stored total equals the probe; only otherwise is the history scanned. |
| `Heavy.ProfileCache.ReconcileAll` | update_profile.py:383-413 | The loop computes exactly `Pass`. On success it returns the lines of the new entries and their sums. |
| `Heavy.ProfileCache.HeavyStats` | update_profile.py:366-417 | The result and the new state (file and `RECURSION_GUARD`) are exactly `HeavyRun` of the old state. This includes the recursion on a mismatch. |
| `HeavyFacts.PassDone` | update_profile.py:386-413 | A finished pass made one entry per repository, each the outcome of that repository's own step. |
| `HeavyFacts.PassOfSteps` | update_profile.py:386-413 | Conversely, if every step succeeds, the pass finishes with exactly those entries. |
| `HeavyFacts.WrittenLineReconciles` | update_profile.py:396-409 | A line written for an entry of a repository whose name has one '/' always passes the loop body. The entry is kept if its total equals the probe; otherwise it becomes the fingerprint, the probed total and the rescanned tally. |
| `HeavyFacts.StepStable` | update_profile.py:396-409 | A line written for an entry gives back that entry on the next pass, from the cache. |
| `HeavyFacts.PassStable` | update_profile.py:386-415 | The lines a finished pass writes make the next pass finish with the same entries. |
| `HeavyFacts.ZeroLineMatches` | update_profile.py:246-247 | A fresh line never mismatches its own repository. |
| `HeavyFacts.FreshPassNeverMismatches` | update_profile.py:244-258 | A pass over a freshly rebuilt cache never reports a fingerprint mismatch. |
| `HeavyFacts.RebuildNeverTriggersGuard` | update_profile.py:241-258 | A run that starts by rebuilding (forced, absent file, or a count change) never raises the guard error and leaves `RECURSION_GUARD` unchanged. |
| `HeavyFacts.MismatchExhaustsGuard` | update_profile.py:390-395 | Take a mismatch in a cache that exists and has the right length, without `FORCE_CACHE`. The run always ends in the guard error, with the file untouched and `RECURSION_GUARD` raised to 2. |
| `HeavyFacts.SuccessfulRunReadsBack` | update_profile.py:409-417 | After a successful run, the repository lines read back to one entry per listed repository. Each entry has that repository's fingerprint and probed total. The returned totals are (Σmy, Σadd, Σdel, Σadd−Σdel) of those entries. |
| `HeavyFacts.RunKeepsHeader` | update_profile.py:415 | After a successful run, the first five lines are the new header if the run rebuilt, else the old ones. A failed run leaves the file as initialisation left it. |
| `HeavyFacts.WrittenLineFromCache` | update_profile.py:396-399 | The line written for a successful step is taken from the cache on the next pass: it gets through and its stored total equals the probe. |
| `HeavyFacts.RunIdempotent` | update_profile.py:366-417 | Without `FORCE_CACHE`, a second run after a successful one finds the file needing no re-initialisation. Every repository line it reads is taken from the cache, so no history is scanned. It returns the same totals and leaves the file and the guard unchanged. |
| `HeavyRuns.FreshLineScans` | update_profile.py:386-409 | The fresh line of a repository whose name has one '/' yields that repository's rescan: its fingerprint, probed total and tally. |
| `HeavyRuns.FreshPassScans` | update_profile.py:386-413 | A pass over the fresh lines of well-named repositories finishes with the rescan of every repository, in listing order. |
| `HeavyRuns.ForcedRunScansAll` | update_profile.py:366-417 | With `FORCE_CACHE` and every name having one '/', the run succeeds whatever the file held. It returns the sums of the rescans and writes the new header followed by one line per rescan. The guard is unchanged. |
| `HeavyRuns.ForcedRunRejectsName` | update_profile.py:389 | With `FORCE_CACHE`, a run over a listing that contains a name without exactly one '/' fails. |
| `HeavyRuns.ForcedRunSucceeds` | update_profile.py:366-417 | With `FORCE_CACHE`, a run succeeds if and only if every name has exactly one '/'. |
| `HeavyRuns.ForcedSingleRun` | update_profile.py:366-417 | A forced run over one repository returns that repository's rescanned counts, with the difference of additions and deletions, and writes the header plus that repository's line. |
| `HeavyRuns.TotalsOfOne` | update_profile.py:406-417 | The totals over one entry are its own counts and the difference of its additions and deletions. |
| `HeavyRuns.HeavyModeExample` | tests/heavy_test.py:60-80 | One repository whose probe reports 1 commit and whose history holds one commit of the account, +10/-2. A forced run returns (1, 10, 2, 8) and records the line `sha 1 1 10 2`. |
| `HeavyRuns.ExampleLine` | update_profile.py:409 | The entry (1, 1, 10, 2) is written as the fingerprint followed by ` 1 1 10 2`, character for character. |
| `HeavyRuns.NoDefaultBranchRecordsZeros` | update_profile.py:297-315 | For a repository without a default branch, a forced run returns (0, 0, 0, 0) without error and records the line `sha 0 0 0 0`. |
| `Heavy.HeavyRunRebuilding` | update_profile.py:390-395 | The corrected run: on a mismatch the cache is rewritten from scratch before the pass restarts. |
| `HeavyFacts.RebuildingRecovers` | update_profile.py:390-395 | With the corrected rebuild, a run that starts with the guard at most 1 never ends in the guard error, and raises the guard at most once. |
| `Strings.Strip` | update_profile.py:624 | `strip()` returns a contiguous part of its input that neither starts nor ends with whitespace, and everything before and after that part is whitespace. |
| `Strings.SplitWs` | update_profile.py:631 | `split()` yields nonempty words without whitespace. |
| `Strings.SplitLeadingSpace` | update_profile.py:631 | `split()` skips a leading whitespace character. |
| `Strings.SplitWordThen` | update_profile.py:631 | A word followed by any whitespace character (space, tab, newline, 0x0B-0x0D, 0x1C-0x1F) and more text splits into that word followed by the split of the rest. Together with `Strings.SplitLeadingSpace` and `Strings.SplitWord` this determines `split()` on every ASCII text. |
| `Strings.SplitWord` | update_profile.py:631 | A single word splits into itself. |
| `Strings.SplitJoin` | update_profile.py:631-643 | Splitting words joined by single spaces gives back the words. |
| `Strings.Digits` | update_profile.py:409 | The decimal digits of a natural number are nonempty ASCII digits and start with '0' only for 0. |
| `Strings.IntToString` | update_profile.py:409 | `f"{n}"` is one whitespace-free word in canonical decimal form. It carries a leading '-' exactly for negative numbers, followed by digits. The only rendering that starts with '0' is "0", and no negative rendering has a leading zero. |
| `Strings.IntRoundTrip` | update_profile.py:398-409 | `int(f"{n}") == n` for every integer. |
| `Strings.Lower` | update_profile.py:355 | `lower()` keeps the length and maps each ASCII letter to lowercase. |

## Left out

- HTTP is left out: `requests.post`, timeouts and status texts are replaced by the parameters described above.
- `time.sleep` and the floating-point backoff `RETRY_BACKOFF ** attempt` are left out. They do not change which attempts are made.
- Retry.Gql: it returns the failure of the last attempt rather than the Python exception object. The fallback after the loop is reached only when no attempt was made. `last_exc` is then `None`, so "failed without exception" is raised.
- The outcomes of `gql` are not composed into the paging loops or the heavy scan. Those take the answers of successful calls as inputs, because a raised error simply ends the run.
- History.ScanRepoHistory: a commit's author is either a linked user or no user. A commit whose `author` itself is `null` makes the attribution test raise a `TypeError`. The model has no such commit.
- Heavy.ProfileCache.ReconcileRepo: the history request itself is not an observable effect of the model, because `ScanRepoHistory` is a computation over the `remote` parameter. Which branch is taken is stated through the out-value `fromCache`, and the scan sits only in the branch where it is false.
- The remote is assumed to answer the same within one run. `scan_repo_history` probes the total a second time, and the model uses one value for both probes.
- Paging.GetReposAndStars: it requires at least one page of each kind, since the source always receives a response. Pages after the first page without a next page are ignored. A page sequence that runs out is treated as the last page.
- SHA-256 is the parameter `hash`. Its collision resistance is not modelled.
- File reads and writes are replaced by the fields `present` and `lines`. Line terminators are left out. `os.path.exists` is the field `present`.
- The timestamp is the parameter `generated`. `datetime.utcnow().isoformat()` is not modelled.
- `str.split()`, `strip()`, `lower()` and `int()` are modelled on ASCII whitespace, ASCII letters and an optional '-' followed by ASCII digits. Python also accepts Unicode whitespace and digits, and `int()` also accepts '+', '_' and surrounding spaces. Lines written by the program never contain those.
- Text.WrapTagline: Unicode whitespace outside ASCII (U+0085, U+00A0, U+1680, U+2000-U+200A, U+2028, U+2029, U+202F, U+205F, U+3000) is not treated as whitespace. A tagline containing such characters is stripped and split differently from `strip()` and `split()`.
- Text.WrapTagline: it takes `max_w` already parsed. Reading `data-max-width` with `int()` and its fallback to 0, the lxml element and the tspans built from the lines are not modelled.
- `format_int` (thousands separators), `rel_age` (calendar arithmetic with `dateutil`), `get_user_and_created`, `get_followers`, `build_stats_container`, `update_svgs`, `embed_font_if_requested`, `embed_logo`, `encode_logo.py` and `main` are left out. They are SVG/XML manipulation, network fetches, binary encoding or glue, outside the reconciliation logic.
- Environment parsing at import time, `QUERY_COUNT`, `count_query` and `debug` are left out. They are configuration and observability only.
- `heavy_stats` re-initialises a second time when the counts still differ after `init_cache_if_needed`. The model proves this never happens and replaces that branch with an assertion.

## Findings

| source | as written | input that shows it | evidently intended | confidence | as-written member | corrected member |
|---|---|---|---|---|---|---|
| update_profile.py:390-395 | On a fingerprint mismatch, `heavy_stats` raises `RECURSION_GUARD` and calls `init_cache_if_needed`. That call rewrites nothing when the file exists and has one line per repository. So the restarted pass meets the same mismatch until the guard error is raised, on every run. | `FORCE_CACHE` off, the listing `[b, a]`, and a cache of two lines written for `[a, b]`. | The cache is rebuilt from scratch on a mismatch, so the retried pass succeeds. The restart only makes sense if re-initialisation changes the file, and `# prevent endless recursion` treats the guard as a safety net rather than the normal outcome. | not executed; high | `HeavyFacts.MismatchExhaustsGuard` | `HeavyFacts.RebuildingRecovers` |

=== FILE: cache_format.dfy ===
/**
 * The LOC / commit cache file as a sequence of lines (without their line
 * terminators): a fixed header of `CacheCommentLines` lines, then one line
 * per repository, `<sha256 hex> <totalCommits> <myCommits> <additions> <deletions>`,
 * in listing order.
 */
module CacheFormat {
  import opened Wrappers
  import opened Strings

  const CacheCommentLines := 5

  predicate IsHexChar(c: char) {
    '0' <= c <= '9' || 'a' <= c <= 'f'
  }

  /** A SHA-256 hex digest as `hexdigest()` writes it. */
  predicate IsHexDigest(s: string) {
    |s| == 64 && forall i :: 0 <= i < |s| ==> IsHexChar(s[i])
  }

  type Digest = s: string | IsHexDigest(s)
    witness seq(64, _ => '0')

  /** One repository's line of the cache. */
  datatype Entry = Entry(hash: Digest, total: int, myCommits: int, additions: int, deletions: int)

  /** `write_cache_header`: the five comment lines; the clock reading is a parameter. */
  function Header(user: string, generated: string): (h: seq<string>)
    ensures |h| == CacheCommentLines
  {
    [ "Cache File for LOC / Commit Stats",
      "Format: sha256(repo) totalCommits myCommits additions deletions",
      "User: " + user,
      "Generated: " + generated,
      "---" ]
  }

  /** `lines[:CACHE_COMMENT_LINES]`. */
  function HeaderPart(lines: seq<string>): seq<string> {
    if |lines| <= CacheCommentLines then lines else lines[..CacheCommentLines]
  }

  /** `lines[CACHE_COMMENT_LINES:]`. */
  function RepoLines(lines: seq<string>): seq<string> {
    if |lines| <= CacheCommentLines then [] else lines[CacheCommentLines..]
  }

  /** The line written for an entry: its five fields separated by single spaces. */
  function FormatEntry(e: Entry): string {
    JoinSpace([e.hash, IntToString(e.total), IntToString(e.myCommits),
               IntToString(e.additions), IntToString(e.deletions)])
  }

  function FormatEntries(es: seq<Entry>): (lines: seq<string>)
    ensures |lines| == |es|
    ensures forall i :: 0 <= i < |es| ==> lines[i] == FormatEntry(es[i])
  {
    seq(|es|, i requires 0 <= i < |es| => FormatEntry(es[i]))
  }

  /** The fresh line for a repository: its fingerprint and four zeros. */
  function ZeroLine(hash: Digest): string {
    hash + " 0 0 0 0"
  }

  /** Reading a line back: `split()` into five fields, a digest and four integers. */
  function ParseEntry(line: string): Option<Entry> {
    var f := SplitWs(line);
    if |f| != 5 || !IsHexDigest(f[0]) then None
    else match (ParseInt(f[1]), ParseInt(f[2]), ParseInt(f[3]), ParseInt(f[4]))
      case (Some(t), Some(m), Some(a), Some(d)) => Some(Entry(f[0], t, m, a, d))
      case _ => None
  }

  lemma DigestIsWord(h: Digest)
    ensures IsWord(h)
  {
    assert forall i :: 0 <= i < |h| ==> IsHexChar(h[i]);
  }

  /** The fields of a written line, as `split()` returns them. */
  lemma FieldsOfEntry(e: Entry)
    ensures SplitWs(FormatEntry(e)) ==
            [e.hash, IntToString(e.total), IntToString(e.myCommits),
             IntToString(e.additions), IntToString(e.deletions)]
  {
    DigestIsWord(e.hash);
    SplitJoin([e.hash, IntToString(e.total), IntToString(e.myCommits),
               IntToString(e.additions), IntToString(e.deletions)]);
  }

  /** Every line written for an entry reads back to that entry. */
  lemma EntryReadBack(e: Entry)
    ensures ParseEntry(FormatEntry(e)) == Some(e)
  {
    FieldsOfEntry(e);
    IntRoundTrip(e.total);
    IntRoundTrip(e.myCommits);
    IntRoundTrip(e.additions);
    IntRoundTrip(e.deletions);
  }

  /** The fresh line of a repository is the line of an all-zero entry. */
  lemma ZeroLineIsEntry(hash: Digest)
    ensures ZeroLine(hash) == FormatEntry(Entry(hash, 0, 0, 0, 0))
  {
    assert IntToString(0) == "0";
    var z := ["0", "0", "0", "0"];
    assert JoinSpace(z[3..]) == "0";
    assert JoinSpace(z[2..]) == "0 0";
    assert JoinSpace(z[1..]) == "0 0 0";
    assert JoinSpace(z) == "0 0 0 0";
    assert [hash] + z == [hash, "0", "0", "0", "0"];
    assert ([hash] + z)[1..] == z;
  }

  /** After a full header, the repository lines are exactly what follows it. */
  lemma RepoLinesAfterHeader(header: seq<string>, body: seq<string>)
    requires |header| == CacheCommentLines
    ensures RepoLines(header + body) == body
    ensures HeaderPart(header + body) == header
  {
    if |body| > 0 {
      assert (header + body)[CacheCommentLines..] == body;
    }
    assert (header + body)[..CacheCommentLines] == header;
  }

  /** Replacing the repository lines of a file keeps its first five lines. */
  lemma RepoLinesReplaced(lines: seq<string>, body: seq<string>)
    requires |body| == |RepoLines(lines)|
    ensures RepoLines(HeaderPart(lines) + body) == body
    ensures HeaderPart(HeaderPart(lines) + body) == HeaderPart(lines)
  {
    if |lines| <= CacheCommentLines {
      assert body == [];
      assert HeaderPart(lines) + body == lines;
    } else {
      RepoLinesAfterHeader(lines[..CacheCommentLines], body);
    }
  }

  /** Reading all repository lines back; `None` as soon as one of them is malformed. */
  function ParseEntries(lines: seq<string>): Option<seq<Entry>> {
    if lines == [] then Some([])
    else
      var n := |lines| - 1;
      var front := ParseEntries(lines[..n]);
      var last := ParseEntry(lines[n]);
      if front.Some? && last.Some? then Some(front.value + [last.value]) else None
  }

  /** Reading succeeds with one entry per line, each the parse of its own line. */
  lemma {:induction false} ParseEntriesLines(lines: seq<string>)
    requires ParseEntries(lines).Some?
    ensures |ParseEntries(lines).value| == |lines|
    ensures forall k :: 0 <= k < |lines| ==> ParseEntry(lines[k]) == Some(ParseEntries(lines).value[k])
  {
    if lines != [] {
      var n := |lines| - 1;
      ParseEntriesLines(lines[..n]);
      var es := ParseEntries(lines[..n]).value;
      assert ParseEntries(lines).value == es + [ParseEntry(lines[n]).value];
      forall k | 0 <= k < |lines|
        ensures ParseEntry(lines[k]) == Some(ParseEntries(lines).value[k])
      {
        if k < n {
          assert lines[k] == lines[..n][k];
        }
      }
    }
  }

  lemma ParseEntriesSnoc(lines: seq<string>, es: seq<Entry>)
    requires lines != [] && |es| == |lines|
    requires ParseEntries(lines[..|lines| - 1]) == Some(es[..|es| - 1])
    requires ParseEntry(lines[|lines| - 1]) == Some(es[|es| - 1])
    ensures ParseEntries(lines) == Some(es)
  {
    assert es == es[..|es| - 1] + [es[|es| - 1]];
  }

  lemma FormatEntriesSnoc(es: seq<Entry>)
    requires es != []
    ensures FormatEntries(es)[..|es| - 1] == FormatEntries(es[..|es| - 1])
    ensures FormatEntries(es)[|es| - 1] == FormatEntry(es[|es| - 1])
  {
  }

  /** A file body written from entries reads back to exactly those entries. */
  lemma {:induction false} EntriesReadBack(es: seq<Entry>)
    ensures ParseEntries(FormatEntries(es)) == Some(es)
  {
    if es != [] {
      var n := |es| - 1;
      FormatEntriesSnoc(es);
      EntriesReadBack(es[..n]);
      EntryReadBack(es[n]);
      ParseEntriesSnoc(FormatEntries(es), es);
    }
  }
}

=== FILE: heavy.dfy ===
/**
 * The heavy scan: incremental reconciliation of the LOC / commit cache with
 * the live repository listing (`init_cache_if_needed`, `write_cache_header`,
 * `heavy_stats`).
 *
 * The cache is keyed by position: entry i is valid only for the i-th listed
 * repository, which its SHA-256 fingerprint witnesses. For every repository
 * the cheap commit-count probe decides between reusing the cached counts and
 * rescanning the history. A fingerprint mismatch rebuilds the cache (when the
 * rebuild conditions hold) and restarts the whole pass, bounded by a
 * process-wide recursion guard.
 *
 * The remote API and SHA-256 are parameters: `remote(name)` is what the API
 * answers about a repository, `hash(name)` its fingerprint. The clock reading
 * written into the header is the parameter `generated`.
 */
module Heavy {
  import opened Wrappers
  import opened Strings
  import opened History
  import opened CacheFormat

  /** The exceptions `heavy_stats` can raise on its own. */
  datatype HeavyError =
    | MalformedEntry    // a cache line that does not split into five fields
    | MalformedName     // a name that does not split into owner and repository
    | MalformedNumber   // a cache field that int() rejects
    | GuardTriggered    // "Cache hash mismatch recursion guard triggered"

  /** (my_commits, loc_add, loc_del, loc_net). */
  datatype Totals = Totals(myCommits: int, additions: int, deletions: int, net: int)

  /** The outcome of the loop body for one repository. */
  datatype Step = StepOk(entry: Entry) | StepMismatch | StepFailed(error: HeavyError)

  /** The outcome of one pass of the loop over all repositories. */
  datatype PassResult = Done(entries: seq<Entry>) | Mismatch | Failed(error: HeavyError)

  /** The persistent state: the cache file (absent, or its lines) and RECURSION_GUARD. */
  datatype Store = Store(present: bool, lines: seq<string>, guard: nat)

  function SlashCount(s: string): nat {
    if s == "" then 0 else SlashCount(s[..|s| - 1]) + (if s[|s| - 1] == '/' then 1 else 0)
  }

  /** The conditions under which `init_cache_if_needed` rewrites the file. */
  predicate NeedsRebuild(force: bool, present: bool, lines: seq<string>, repoCount: nat) {
    force || !present || |RepoLines(lines)| != repoCount
  }

  /** One fresh line per repository, in listing order. */
  function ZeroLines(repos: seq<string>, hash: string -> Digest): (z: seq<string>)
    ensures |z| == |repos|
    ensures forall i :: 0 <= i < |repos| ==> z[i] == ZeroLine(hash(repos[i]))
  {
    seq(|repos|, i requires 0 <= i < |repos| => ZeroLine(hash(repos[i])))
  }

  /**
   * The cache lines after `init_cache_if_needed`: rebuilt as the header and
   * one zero line per repository, or left as they were. Either way there is
   * one repository line per listed repository afterwards.
   */
  function InitLines(force: bool, present: bool, lines: seq<string>, repos: seq<string>,
                     hash: string -> Digest, user: string, generated: string): (r: seq<string>)
    ensures |RepoLines(r)| == |repos|
    ensures NeedsRebuild(force, present, lines, |repos|) ==>
              HeaderPart(r) == Header(user, generated) && RepoLines(r) == ZeroLines(repos, hash)
    ensures !NeedsRebuild(force, present, lines, |repos|) ==> r == lines
  {
    if NeedsRebuild(force, present, lines, |repos|) then
      RepoLinesAfterHeader(Header(user, generated), ZeroLines(repos, hash));
      Header(user, generated) + ZeroLines(repos, hash)
    else lines
  }

  function Init(force: bool, user: string, s: Store, repos: seq<string>,
                hash: string -> Digest, generated: string): Store
  {
    Store(true, InitLines(force, s.present, s.lines, repos, hash, user, generated), s.guard)
  }

  /**
   * When the loop body of `heavy_stats` gets through a repository: the line
   * has five fields, the name one '/', the fingerprint matches, the stored
   * total is an integer, and so are the stored counts when they are reused
   * (the probed total equals the stored one).
   */
  predicate Reconcilable(name: string, line: string, remote: string -> RepoRemote, hash: string -> Digest) {
    var f := SplitWs(line);
    && |f| == 5 && SlashCount(name) == 1 && f[0] == hash(name)
    && ParseInt(f[1]).Some?
    && (ParseInt(f[1]) == Some(GetRepoCommitTotal(remote(name))) ==>
          ParseInt(f[2]).Some? && ParseInt(f[3]).Some? && ParseInt(f[4]).Some?)
  }

  /**
   * `from_cache` on a line that gets through: the stored total equals the
   * probed one, so the stored counts are reused and the history of the
   * repository is not requested.
   */
  predicate FromCache(name: string, line: string, remote: string -> RepoRemote, hash: string -> Digest) {
    Reconcilable(name, line, remote, hash) && ParseInt(SplitWs(line)[1]) == Some(GetRepoCommitTotal(remote(name)))
  }

  /**
   * The loop body of `heavy_stats` for the repository `name` and its cache
   * line: split the line into five fields, split the name at '/', compare the
   * fingerprint, probe the commit total, and either reuse the cached counts
   * (the probed total equals the cached one) or rescan the history.
   */
  function RepoStep(name: string, line: string, remote: string -> RepoRemote,
                    hash: string -> Digest, user: string): (st: Step)
    ensures st.StepFailed? ==> st.error != GuardTriggered
  {
    var f := SplitWs(line);
    if |f| != 5 then StepFailed(MalformedEntry)
    else if SlashCount(name) != 1 then StepFailed(MalformedName)
    else if f[0] != hash(name) then StepMismatch
    else
      var current := GetRepoCommitTotal(remote(name));
      match ParseInt(f[1])
      case None => StepFailed(MalformedNumber)
      case Some(prevTotal) =>
        if current == prevTotal then
          match (ParseInt(f[2]), ParseInt(f[3]), ParseInt(f[4]))
          case (Some(m), Some(a), Some(d)) => StepOk(Entry(hash(name), current, m, a, d))
          case _ => StepFailed(MalformedNumber)
        else
          var t := ScanTally(remote(name), user);
          StepOk(Entry(hash(name), current, t.myCommits, t.additions, t.deletions))
  }

  /**
   * The outcome of the loop body: it gets through exactly the reconcilable
   * lines, fails with the exception of the first check a line does not
   * pass, and a new entry carries the fingerprint, the probed total, and
   * either the stored counts (the total is unchanged) or the rescanned ones.
   */
  lemma RepoStepOutcome(name: string, line: string, remote: string -> RepoRemote,
                        hash: string -> Digest, user: string)
    ensures var st := RepoStep(name, line, remote, hash, user);
            var f := SplitWs(line);
            && (st.StepOk? <==> Reconcilable(name, line, remote, hash))
            && (st.StepMismatch? <==> |f| == 5 && SlashCount(name) == 1 && f[0] != hash(name))
            && (|f| != 5 ==> st == StepFailed(MalformedEntry))
            && (|f| == 5 && SlashCount(name) != 1 ==> st == StepFailed(MalformedName))
            && ((|f| == 5 && SlashCount(name) == 1 && f[0] == hash(name) &&
                 !Reconcilable(name, line, remote, hash)) ==> st == StepFailed(MalformedNumber))
            && (st.StepOk? ==> st.entry.hash == hash(name) && st.entry.total == GetRepoCommitTotal(remote(name)))
            && (st.StepOk? && ParseInt(f[1]) == Some(st.entry.total) ==>
                  ParseInt(f[2]) == Some(st.entry.myCommits) &&
                  ParseInt(f[3]) == Some(st.entry.additions) &&
                  ParseInt(f[4]) == Some(st.entry.deletions))
            && (st.StepOk? && ParseInt(f[1]) != Some(st.entry.total) ==>
                  var t := ScanTally(remote(name), user);
                  st.entry.myCommits == t.myCommits && st.entry.additions == t.additions &&
                  st.entry.deletions == t.deletions)
  {
  }

  /** The loop of `heavy_stats` over the repositories and their cache lines, in order. */
  function Pass(names: seq<string>, lines: seq<string>, remote: string -> RepoRemote,
                hash: string -> Digest, user: string): (r: PassResult)
    requires |names| == |lines|
    ensures r.Failed? ==> r.error != GuardTriggered
  {
    if names == [] then Done([])
    else
      var n := |names| - 1;
      match Pass(names[..n], lines[..n], remote, hash, user)
      case Done(es) =>
        (match RepoStep(names[n], lines[n], remote, hash, user)
         case StepOk(e) => Done(es + [e])
         case StepMismatch => Mismatch
         case StepFailed(err) => Failed(err))
      case other => other
  }

  function CommitsOf(es: seq<Entry>): int {
    if es == [] then 0 else CommitsOf(es[..|es| - 1]) + es[|es| - 1].myCommits
  }

  function AdditionsOf(es: seq<Entry>): int {
    if es == [] then 0 else AdditionsOf(es[..|es| - 1]) + es[|es| - 1].additions
  }

  function DeletionsOf(es: seq<Entry>): int {
    if es == [] then 0 else DeletionsOf(es[..|es| - 1]) + es[|es| - 1].deletions
  }

  function TotalsOf(es: seq<Entry>): Totals {
    Totals(CommitsOf(es), AdditionsOf(es), DeletionsOf(es), AdditionsOf(es) - DeletionsOf(es))
  }

  /** Appending an entry appends its line and adds its counts to the sums. */
  lemma AppendEntry(es: seq<Entry>, e: Entry)
    ensures FormatEntries(es + [e]) == FormatEntries(es) + [FormatEntry(e)]
    ensures CommitsOf(es + [e]) == CommitsOf(es) + e.myCommits
    ensures AdditionsOf(es + [e]) == AdditionsOf(es) + e.additions
    ensures DeletionsOf(es + [e]) == DeletionsOf(es) + e.deletions
  {
    assert (es + [e])[..|es|] == es;
  }

  function GuardMeasure(guard: nat): nat {
    if guard <= 2 then 2 - guard else 0
  }

  /**
   * `heavy_stats` from the store `s`: initialise the cache, run the pass over
   * the repository lines; on success rewrite the file as its first five lines
   * followed by the new entries; on a fingerprint mismatch raise once the
   * guard exceeds 1, otherwise bump the guard, initialise again and start over.
   */
  function HeavyRun(force: bool, user: string, s: Store, repos: seq<string>,
                    remote: string -> RepoRemote, hash: string -> Digest, generated: string)
    : (Result<Totals, HeavyError>, Store)
    decreases GuardMeasure(s.guard)
  {
    var s1 := Init(force, user, s, repos, hash, generated);
    match Pass(repos, RepoLines(s1.lines), remote, hash, user)
    case Done(es) => (Ok(TotalsOf(es)), s1.(lines := HeaderPart(s1.lines) + FormatEntries(es)))
    case Failed(err) => (Err(err), s1)
    case Mismatch =>
      if s1.guard > 1 then (Err(GuardTriggered), s1)
      else HeavyRun(force, user, Init(force, user, s1.(guard := s1.guard + 1), repos, hash, generated),
                    repos, remote, hash, generated)
  }

  /**
   * `heavy_stats` as its restart on a mismatch implies: restarting only helps
   * if the file changes, and the recursion guard is meant as a safety net, so
   * on a fingerprint mismatch the cache is rewritten from scratch (header and
   * one zero line per repository) before the pass restarts. `HeavyRun`
   * instead re-initialises with the ordinary rebuild conditions, which a
   * cache of the right length never meets.
   */
  function HeavyRunRebuilding(force: bool, user: string, s: Store, repos: seq<string>,
                              remote: string -> RepoRemote, hash: string -> Digest, generated: string)
    : (Result<Totals, HeavyError>, Store)
    decreases GuardMeasure(s.guard)
  {
    var s1 := Init(force, user, s, repos, hash, generated);
    match Pass(repos, RepoLines(s1.lines), remote, hash, user)
    case Done(es) => (Ok(TotalsOf(es)), s1.(lines := HeaderPart(s1.lines) + FormatEntries(es)))
    case Failed(err) => (Err(err), s1)
    case Mismatch =>
      if s1.guard > 1 then (Err(GuardTriggered), s1)
      else HeavyRunRebuilding(force, user, Init(true, user, s1.(guard := s1.guard + 1), repos, hash, generated),
                              repos, remote, hash, generated)
  }

  /** `HeavyRun` once the pass over the initialised file has finished. */
  lemma HeavyRunDone(force: bool, user: string, s: Store, repos: seq<string>,
                     remote: string -> RepoRemote, hash: string -> Digest, generated: string, es: seq<Entry>)
    requires Pass(repos, RepoLines(Init(force, user, s, repos, hash, generated).lines), remote, hash, user) == Done(es)
    ensures var s1 := Init(force, user, s, repos, hash, generated);
            HeavyRun(force, user, s, repos, remote, hash, generated) ==
            (Ok(TotalsOf(es)), s1.(lines := HeaderPart(s1.lines) + FormatEntries(es)))
  {
  }

  /** `HeavyRun` once the pass has failed or the guard has tripped. */
  lemma HeavyRunFails(force: bool, user: string, s: Store, repos: seq<string>,
                      remote: string -> RepoRemote, hash: string -> Digest, generated: string, err: HeavyError)
    requires var p := Pass(repos, RepoLines(Init(force, user, s, repos, hash, generated).lines), remote, hash, user);
             p == Failed(err) || (p == Mismatch && s.guard > 1 && err == GuardTriggered)
    ensures HeavyRun(force, user, s, repos, remote, hash, generated) ==
            (Err(err), Init(force, user, s, repos, hash, generated))
  {
  }

  /** `HeavyRun` on a mismatch with the guard still low: start over. */
  lemma HeavyRunRetry(force: bool, user: string, s: Store, repos: seq<string>,
                      remote: string -> RepoRemote, hash: string -> Digest, generated: string)
    requires Pass(repos, RepoLines(Init(force, user, s, repos, hash, generated).lines), remote, hash, user) == Mismatch
    requires s.guard <= 1
    ensures var s1 := Init(force, user, s, repos, hash, generated);
            HeavyRun(force, user, s, repos, remote, hash, generated) ==
            HeavyRun(force, user, Init(force, user, s1.(guard := s1.guard + 1), repos, hash, generated),
                     repos, remote, hash, generated)
  {
  }

  /** A pass that stopped early keeps its outcome whatever follows. */
  lemma {:induction false} PassStops(names: seq<string>, lines: seq<string>, i: nat,
                                     remote: string -> RepoRemote, hash: string -> Digest, user: string)
    requires |names| == |lines| && i <= |names|
    requires !Pass(names[..i], lines[..i], remote, hash, user).Done?
    ensures Pass(names, lines, remote, hash, user) == Pass(names[..i], lines[..i], remote, hash, user)
    decreases |names|
  {
    if i < |names| {
      var n := |names| - 1;
      assert names[..n][..i] == names[..i] && lines[..n][..i] == lines[..i];
      PassStops(names[..n], lines[..n], i, remote, hash, user);
    } else {
      assert names[..i] == names && lines[..i] == lines;
    }
  }

  /** One more step of a pass that has not stopped. */
  lemma PassNext(names: seq<string>, lines: seq<string>, i: nat, es: seq<Entry>,
                 remote: string -> RepoRemote, hash: string -> Digest, user: string)
    requires |names| == |lines| && i < |names|
    requires Pass(names[..i], lines[..i], remote, hash, user) == Done(es)
    ensures Pass(names[..i + 1], lines[..i + 1], remote, hash, user) ==
            match RepoStep(names[i], lines[i], remote, hash, user)
            case StepOk(e) => Done(es + [e])
            case StepMismatch => Mismatch
            case StepFailed(err) => Failed(err)
  {
    assert names[..i + 1][..i] == names[..i] && lines[..i + 1][..i] == lines[..i];
  }

  /**
   * The module-level state the heavy scan works on: the cache file of the
   * tracked account and RECURSION_GUARD, together with the configuration it
   * reads (USER_NAME, FORCE_CACHE).
   */
  class ProfileCache {
    const userName: string
    const forceCache: bool
    /** Whether the cache file exists. */
    var present: bool
    /** The lines of the cache file. */
    var lines: seq<string>
    /** RECURSION_GUARD: incremented on every fingerprint mismatch, never reset. */
    var recursionGuard: nat

    function State(): Store
      reads this
    {
      Store(present, lines, recursionGuard)
    }

    constructor (userName: string, forceCache: bool, present: bool, lines: seq<string>)
      ensures this.userName == userName && this.forceCache == forceCache
      ensures State() == Store(present, lines, 0)
    {
      this.userName := userName;
      this.forceCache := forceCache;
      this.present := present;
      this.lines := lines;
      this.recursionGuard := 0;
    }

    /** `write_cache_header`: the file now holds the header and nothing else. */
    method WriteCacheHeader(generated: string)
      modifies this
      ensures State() == Store(true, Header(userName, generated), old(recursionGuard))
    {
      present := true;
      lines := Header(userName, generated);
    }

    /** The append loop of `init_cache_if_needed`: one zero line per repository, in order. */
    method AppendZeroLines(repos: seq<string>, hash: string -> Digest)
      modifies this
      ensures State() == old(State()).(lines := old(lines) + ZeroLines(repos, hash))
    {
      for i := 0 to |repos|
        invariant State() == old(State()).(lines := old(lines) + ZeroLines(repos[..i], hash))
      {
        assert ZeroLines(repos[..i + 1], hash) == ZeroLines(repos[..i], hash) + [ZeroLine(hash(repos[i]))];
        lines := lines + [hash(repos[i]) + " 0 0 0 0"];
      }
      assert repos[..|repos|] == repos;
    }

    /**
     * `init_cache_if_needed`: rebuild when forced, when the file is absent or
     * when its number of repository lines differs from the number of
     * repositories; otherwise leave the file untouched.
     */
    method InitCacheIfNeeded(repos: seq<string>, hash: string -> Digest, generated: string)
      modifies this
      ensures State() == Init(forceCache, userName, old(State()), repos, hash, generated)
    {
      if forceCache || !present {
        WriteCacheHeader(generated);
        AppendZeroLines(repos, hash);
        return;
      }
      // validate the repository list length
      if |RepoLines(lines)| != |repos| {
        WriteCacheHeader(generated);
        AppendZeroLines(repos, hash);
      }
    }

    /**
     * The loop body of `heavy_stats` for one repository, up to the fingerprint
     * check and the reuse-or-rescan choice; the new entry always carries the
     * expected fingerprint and the freshly probed total. `fromCache` tells
     * which way the choice went: the history is scanned only when it is false.
     */
    method ReconcileRepo(name: string, line: string, remote: string -> RepoRemote, hash: string -> Digest)
      returns (step: Step, fromCache: bool)
      ensures step == RepoStep(name, line, remote, hash, userName)
      ensures step.StepOk? ==> step.entry.hash == hash(name)
      ensures step.StepOk? ==> step.entry.total == GetRepoCommitTotal(remote(name))
      ensures fromCache <==> FromCache(name, line, remote, hash)
    {
      fromCache := false;
      RepoStepOutcome(name, line, remote, hash, userName);
      var fields := SplitWs(line);
      if |fields| != 5 {
        return StepFailed(MalformedEntry), false;
      }
      var digest := hash(name);
      if SlashCount(name) != 1 {
        // the name must split into owner and repository at exactly one '/'
        return StepFailed(MalformedName), false;
      }
      if fields[0] != digest {
        return StepMismatch, false;
      }
      var currentTotal := GetRepoCommitTotal(remote(name));
      var prevTotal := ParseInt(fields[1]);
      if prevTotal.None? {
        return StepFailed(MalformedNumber), false;
      }
      var myCommits, addLoc, delLoc;
      if currentTotal == prevTotal.value {
        // no change: reuse the cached counts
        var prevMy, prevAdd, prevDel := ParseInt(fields[2]), ParseInt(fields[3]), ParseInt(fields[4]);
        if prevMy.None? || prevAdd.None? || prevDel.None? {
          return StepFailed(MalformedNumber), false;
        }
        myCommits, addLoc, delLoc := prevMy.value, prevAdd.value, prevDel.value;
        fromCache := true;
      } else {
        var t := ScanRepoHistory(remote(name), userName);
        myCommits, addLoc, delLoc := t.myCommits, t.additions, t.deletions;
      }
      return StepOk(Entry(digest, currentTotal, myCommits, addLoc, delLoc)), fromCache;
    }

    /**
     * The loop of `heavy_stats` over the repositories and their cache lines:
     * stops at the first malformed line or fingerprint mismatch, otherwise
     * collects the updated lines and the running sums.
     */
    method ReconcileAll(repos: seq<string>, cached: seq<string>, remote: string -> RepoRemote, hash: string -> Digest)
      returns (p: PassResult, updated: seq<string>, totals: Totals)
      requires |cached| == |repos|
      ensures p == Pass(repos, cached, remote, hash, userName)
      ensures p.Done? ==> updated == FormatEntries(p.entries) && totals == TotalsOf(p.entries)
    {
      updated := [];
      var entries: seq<Entry> := [];
      var totalMy, totalAdd, totalDel := 0, 0, 0;
      var i := 0;
      while i < |repos|
        invariant 0 <= i <= |repos|
        invariant Pass(repos[..i], cached[..i], remote, hash, userName) == Done(entries)
        invariant updated == FormatEntries(entries)
        invariant totalMy == CommitsOf(entries)
        invariant totalAdd == AdditionsOf(entries)
        invariant totalDel == DeletionsOf(entries)
      {
        PassNext(repos, cached, i, entries, remote, hash, userName);
        var step, _ := ReconcileRepo(repos[i], cached[i], remote, hash);
        if step.StepFailed? {
          PassStops(repos, cached, i + 1, remote, hash, userName);
          return Failed(step.error), updated, Totals(totalMy, totalAdd, totalDel, totalAdd - totalDel);
        }
        if step.StepMismatch? {
          PassStops(repos, cached, i + 1, remote, hash, userName);
          return Mismatch, updated, Totals(totalMy, totalAdd, totalDel, totalAdd - totalDel);
        }
        var e := step.entry;
        AppendEntry(entries, e);
        updated := updated + [FormatEntry(e)];
        entries := entries + [e];
        totalMy := totalMy + e.myCommits;
        totalAdd := totalAdd + e.additions;
        totalDel := totalDel + e.deletions;
        i := i + 1;
      }
      assert repos[..i] == repos && cached[..i] == cached;
      p := Done(entries);
      totals := Totals(totalMy, totalAdd, totalDel, totalAdd - totalDel);
    }

    /**
     * `heavy_stats`: the whole reconciliation, recursion on a fingerprint
     * mismatch included, as `HeavyRun` describes it.
     */
    method HeavyStats(repos: seq<string>, remote: string -> RepoRemote, hash: string -> Digest, generated: string)
      returns (r: Result<Totals, HeavyError>)
      modifies this
      ensures (r, State()) == HeavyRun(forceCache, userName, old(State()), repos, remote, hash, generated)
      decreases GuardMeasure(recursionGuard)
    {
      ghost var s0 := State();
      InitCacheIfNeeded(repos, hash, generated);
      var cached := RepoLines(lines);
      // The source re-initialises when the lengths still differ here; after
      // InitCacheIfNeeded they never do.
      assert |cached| == |repos|;
      var p, updated, totals := ReconcileAll(repos, cached, remote, hash);
      match p
      case Failed(err) =>
        HeavyRunFails(forceCache, userName, s0, repos, remote, hash, generated, err);
        r := Err(err);
      case Mismatch =>
        if recursionGuard > 1 {
          HeavyRunFails(forceCache, userName, s0, repos, remote, hash, generated, GuardTriggered);
          r := Err(GuardTriggered);
        } else {
          HeavyRunRetry(forceCache, userName, s0, repos, remote, hash, generated);
          recursionGuard := recursionGuard + 1;
          InitCacheIfNeeded(repos, hash, generated);
          r := HeavyStats(repos, remote, hash, generated);
        }
      case Done(entries) =>
        HeavyRunDone(forceCache, userName, s0, repos, remote, hash, generated, entries);
        lines := HeaderPart(lines) + updated;
        r := Ok(totals);
    }
  }
}

=== FILE: heavy_facts.dfy ===
/**
 * What the heavy scan guarantees across whole runs: the shape of the file
 * after a successful run, the fate of a fingerprint mismatch, and the
 * stability of a freshly written cache.
 */
module HeavyFacts {
  import opened Wrappers
  import opened Strings
  import opened History
  import opened CacheFormat
  import opened Heavy

  /** A pass that finished made one entry per repository, each the outcome of its own step. */
  lemma {:induction false} PassDone(names: seq<string>, lines: seq<string>, remote: string -> RepoRemote,
                                    hash: string -> Digest, user: string, es: seq<Entry>)
    requires |names| == |lines|
    requires Pass(names, lines, remote, hash, user) == Done(es)
    ensures |es| == |names|
    ensures forall k :: 0 <= k < |names| ==> RepoStep(names[k], lines[k], remote, hash, user) == StepOk(es[k])
    decreases |names|
  {
    if names != [] {
      var n := |names| - 1;
      var p := Pass(names[..n], lines[..n], remote, hash, user);
      assert p.Done?;
      PassDone(names[..n], lines[..n], remote, hash, user, p.entries);
      var st := RepoStep(names[n], lines[n], remote, hash, user);
      assert st.StepOk? && es == p.entries + [st.entry];
      forall k | 0 <= k < |names|
        ensures RepoStep(names[k], lines[k], remote, hash, user) == StepOk(es[k])
      {
        if k < n {
          assert names[k] == names[..n][k] && lines[k] == lines[..n][k];
        }
      }
    }
  }

  /** Conversely, a pass whose every step succeeds finishes with those entries. */
  lemma {:induction false} PassOfSteps(names: seq<string>, lines: seq<string>, remote: string -> RepoRemote,
                                       hash: string -> Digest, user: string, es: seq<Entry>)
    requires |names| == |lines| == |es|
    requires forall k :: 0 <= k < |names| ==> RepoStep(names[k], lines[k], remote, hash, user) == StepOk(es[k])
    ensures Pass(names, lines, remote, hash, user) == Done(es)
    decreases |names|
  {
    if names != [] {
      var n := |names| - 1;
      assert Pass(names[..n], lines[..n], remote, hash, user) == Done(es[..n]) by {
        forall k | 0 <= k < n
          ensures RepoStep(names[..n][k], lines[..n][k], remote, hash, user) == StepOk(es[..n][k])
        {
          assert names[..n][k] == names[k] && lines[..n][k] == lines[k] && es[..n][k] == es[k];
        }
        PassOfSteps(names[..n], lines[..n], remote, hash, user, es[..n]);
      }
      PassSnoc(names, lines, remote, hash, user, es);
    }
  }

  /** A pass that finished over all but the last repository, followed by a successful step, finishes. */
  lemma PassSnoc(names: seq<string>, lines: seq<string>, remote: string -> RepoRemote,
                 hash: string -> Digest, user: string, es: seq<Entry>)
    requires |names| == |lines| == |es| > 0
    requires Pass(names[..|names| - 1], lines[..|names| - 1], remote, hash, user) == Done(es[..|names| - 1])
    requires RepoStep(names[|names| - 1], lines[|names| - 1], remote, hash, user) == StepOk(es[|names| - 1])
    ensures Pass(names, lines, remote, hash, user) == Done(es)
  {
    assert es == es[..|es| - 1] + [es[|es| - 1]];
  }

  /**
   * A line written for an entry of the repository always gets through the
   * loop body: the written counts are reused while the probed total still
   * equals the written one, and rescanned otherwise.
   */
  lemma WrittenLineReconciles(name: string, e: Entry, remote: string -> RepoRemote,
                              hash: string -> Digest, user: string)
    requires SlashCount(name) == 1 && e.hash == hash(name)
    ensures var total := GetRepoCommitTotal(remote(name));
            var t := ScanTally(remote(name), user);
            RepoStep(name, FormatEntry(e), remote, hash, user) ==
            StepOk(if e.total == total then e
                   else Entry(e.hash, total, t.myCommits, t.additions, t.deletions))
  {
    FieldsOfEntry(e);
    IntRoundTrip(e.total);
    IntRoundTrip(e.myCommits);
    IntRoundTrip(e.additions);
    IntRoundTrip(e.deletions);
  }

  /**
   * A line written for an entry produces that same entry on the next pass:
   * the fingerprint matches, the probed total equals the stored one, so the
   * stored counts are reused.
   */
  lemma StepStable(name: string, line: string, remote: string -> RepoRemote,
                   hash: string -> Digest, user: string, e: Entry)
    requires RepoStep(name, line, remote, hash, user) == StepOk(e)
    ensures RepoStep(name, FormatEntry(e), remote, hash, user) == StepOk(e)
  {
    RepoStepOutcome(name, line, remote, hash, user);
    WrittenLineReconciles(name, e, remote, hash, user);
  }

  /** The lines a finished pass writes make the next pass finish with the same entries. */
  lemma PassStable(names: seq<string>, lines: seq<string>, remote: string -> RepoRemote,
                   hash: string -> Digest, user: string, es: seq<Entry>)
    requires |names| == |lines|
    requires Pass(names, lines, remote, hash, user) == Done(es)
    ensures |es| == |names|
    ensures Pass(names, FormatEntries(es), remote, hash, user) == Done(es)
  {
    PassDone(names, lines, remote, hash, user, es);
    forall k | 0 <= k < |names|
      ensures RepoStep(names[k], FormatEntries(es)[k], remote, hash, user) == StepOk(es[k])
    {
      StepStable(names[k], lines[k], remote, hash, user, es[k]);
    }
    PassOfSteps(names, FormatEntries(es), remote, hash, user, es);
  }

  /** A freshly written line never mismatches its own repository. */
  lemma ZeroLineMatches(name: string, remote: string -> RepoRemote, hash: string -> Digest, user: string)
    ensures RepoStep(name, ZeroLine(hash(name)), remote, hash, user) != StepMismatch
  {
    ZeroLineIsEntry(hash(name));
    FieldsOfEntry(Entry(hash(name), 0, 0, 0, 0));
  }

  /** A pass over a freshly rebuilt cache never reports a fingerprint mismatch. */
  lemma {:induction false} FreshPassNeverMismatches(repos: seq<string>, remote: string -> RepoRemote,
                                                    hash: string -> Digest, user: string)
    ensures Pass(repos, ZeroLines(repos, hash), remote, hash, user) != Mismatch
    decreases |repos|
  {
    if repos != [] {
      var n := |repos| - 1;
      assert ZeroLines(repos, hash)[..n] == ZeroLines(repos[..n], hash);
      FreshPassNeverMismatches(repos[..n], remote, hash, user);
      ZeroLineMatches(repos[n], remote, hash, user);
    }
  }

  /**
   * A run that starts by rebuilding the cache (forced, absent file, or a
   * repository count that changed) never trips the recursion guard and
   * leaves RECURSION_GUARD as it was.
   */
  lemma RebuildNeverTriggersGuard(force: bool, user: string, s: Store, repos: seq<string>,
                                  remote: string -> RepoRemote, hash: string -> Digest, generated: string)
    requires NeedsRebuild(force, s.present, s.lines, |repos|)
    ensures HeavyRun(force, user, s, repos, remote, hash, generated).0 != Err(GuardTriggered)
    ensures HeavyRun(force, user, s, repos, remote, hash, generated).1.guard == s.guard
  {
    FreshPassNeverMismatches(repos, remote, hash, user);
  }

  /**
   * As written, a fingerprint mismatch in a cache that exists and has one
   * line per repository is never repaired: the retry re-initialises without
   * rebuilding, meets the same mismatch, and ends in the guard error with
   * RECURSION_GUARD raised to 2, the file untouched.
   */
  lemma {:induction false} MismatchExhaustsGuard(force: bool, user: string, s: Store, repos: seq<string>,
                                                 remote: string -> RepoRemote, hash: string -> Digest,
                                                 generated: string)
    requires !NeedsRebuild(force, s.present, s.lines, |repos|)
    requires Pass(repos, RepoLines(s.lines), remote, hash, user) == Mismatch
    ensures HeavyRun(force, user, s, repos, remote, hash, generated) ==
            (Err(GuardTriggered), s.(guard := if s.guard < 2 then 2 else s.guard))
    decreases GuardMeasure(s.guard)
  {
    assert Init(force, user, s, repos, hash, generated) == s;
    if s.guard <= 1 {
      MismatchExhaustsGuard(force, user, s.(guard := s.guard + 1), repos, remote, hash, generated);
    }
  }

  /**
   * After a successful run the file exists, its repository lines read back to
   * one entry per listed repository, carrying that repository's fingerprint
   * and probed commit total, and the returned totals are their sums.
   */
  lemma {:induction false} SuccessfulRunReadsBack(force: bool, user: string, s: Store, repos: seq<string>,
                                                  remote: string -> RepoRemote, hash: string -> Digest,
                                                  generated: string)
    ensures var (r, s') := HeavyRun(force, user, s, repos, remote, hash, generated);
            r.Ok? ==>
              s'.present &&
              ParseEntries(RepoLines(s'.lines)).Some? &&
              var es := ParseEntries(RepoLines(s'.lines)).value;
              |es| == |repos| &&
              (forall k :: 0 <= k < |repos| ==>
                 es[k].hash == hash(repos[k]) && es[k].total == GetRepoCommitTotal(remote(repos[k]))) &&
              r.value == TotalsOf(es)
    decreases GuardMeasure(s.guard)
  {
    var s1 := Init(force, user, s, repos, hash, generated);
    var p := Pass(repos, RepoLines(s1.lines), remote, hash, user);
    if p.Done? {
      var es := p.entries;
      PassDone(repos, RepoLines(s1.lines), remote, hash, user, es);
      RepoLinesReplaced(s1.lines, FormatEntries(es));
      EntriesReadBack(es);
      forall k | 0 <= k < |repos|
        ensures es[k].hash == hash(repos[k]) && es[k].total == GetRepoCommitTotal(remote(repos[k]))
      {
        RepoStepOutcome(repos[k], RepoLines(s1.lines)[k], remote, hash, user);
        assert RepoStep(repos[k], RepoLines(s1.lines)[k], remote, hash, user) == StepOk(es[k]);
      }
      assert HeavyRun(force, user, s, repos, remote, hash, generated) ==
             (Ok(TotalsOf(es)), s1.(lines := HeaderPart(s1.lines) + FormatEntries(es)));
    } else if p.Mismatch? && s1.guard <= 1 {
      SuccessfulRunReadsBack(force, user, Init(force, user, s1.(guard := s1.guard + 1), repos, hash, generated),
                             repos, remote, hash, generated);
    }
  }

  /**
   * The first five lines after a successful run are the new header when the
   * run had to rebuild and the old first five lines otherwise; a failed run
   * leaves the file exactly as initialisation left it.
   */
  lemma {:induction false} RunKeepsHeader(force: bool, user: string, s: Store, repos: seq<string>,
                                          remote: string -> RepoRemote, hash: string -> Digest,
                                          generated: string)
    ensures var (r, s') := HeavyRun(force, user, s, repos, remote, hash, generated);
            r.Ok? ==>
              HeaderPart(s'.lines) ==
              if NeedsRebuild(force, s.present, s.lines, |repos|) then Header(user, generated)
              else HeaderPart(s.lines)
    ensures var (r, s') := HeavyRun(force, user, s, repos, remote, hash, generated);
            r.Err? ==>
              s'.present && s'.lines == InitLines(force, s.present, s.lines, repos, hash, user, generated)
    decreases GuardMeasure(s.guard)
  {
    var s1 := Init(force, user, s, repos, hash, generated);
    var p := Pass(repos, RepoLines(s1.lines), remote, hash, user);
    if p.Done? {
      PassDone(repos, RepoLines(s1.lines), remote, hash, user, p.entries);
      RepoLinesReplaced(s1.lines, FormatEntries(p.entries));
    } else if p.Mismatch? && s1.guard <= 1 {
      RunKeepsHeader(force, user, Init(force, user, s1.(guard := s1.guard + 1), repos, hash, generated),
                     repos, remote, hash, generated);
    }
  }

  /**
   * The line written for a successful step is taken from the cache on the
   * next pass: its stored total equals the probe, so the history is not
   * requested again.
   */
  lemma WrittenLineFromCache(name: string, line: string, remote: string -> RepoRemote,
                             hash: string -> Digest, user: string, e: Entry)
    requires RepoStep(name, line, remote, hash, user) == StepOk(e)
    ensures FromCache(name, FormatEntry(e), remote, hash)
  {
    StepStable(name, line, remote, hash, user, e);
    RepoStepOutcome(name, FormatEntry(e), remote, hash, user);
    FieldsOfEntry(e);
    IntRoundTrip(e.total);
  }

  /**
   * Without FORCE_CACHE, a second run right after a successful one (same
   * listing, same remote answers, any clock reading) leaves the file as it
   * finds it, takes every repository line from the cache (no history is
   * scanned), returns the same totals and rewrites the file unchanged.
   */
  lemma {:induction false} RunIdempotent(user: string, s: Store, repos: seq<string>,
                                         remote: string -> RepoRemote, hash: string -> Digest,
                                         generated: string, later: string)
    requires HeavyRun(false, user, s, repos, remote, hash, generated).0.Ok?
    ensures var out := HeavyRun(false, user, s, repos, remote, hash, generated);
            HeavyRun(false, user, out.1, repos, remote, hash, later) == out
    ensures var out := HeavyRun(false, user, s, repos, remote, hash, generated);
            Init(false, user, out.1, repos, hash, later) == out.1
    ensures var lines := RepoLines(HeavyRun(false, user, s, repos, remote, hash, generated).1.lines);
            |lines| == |repos| && forall k :: 0 <= k < |repos| ==> FromCache(repos[k], lines[k], remote, hash)
    decreases GuardMeasure(s.guard)
  {
    var s1 := Init(false, user, s, repos, hash, generated);
    var p := Pass(repos, RepoLines(s1.lines), remote, hash, user);
    if p.Done? {
      var es := p.entries;
      PassDone(repos, RepoLines(s1.lines), remote, hash, user, es);
      RepoLinesReplaced(s1.lines, FormatEntries(es));
      PassStable(repos, RepoLines(s1.lines), remote, hash, user, es);
      var s2 := s1.(lines := HeaderPart(s1.lines) + FormatEntries(es));
      assert Init(false, user, s2, repos, hash, later) == s2;
      forall k | 0 <= k < |repos|
        ensures FromCache(repos[k], FormatEntries(es)[k], remote, hash)
      {
        WrittenLineFromCache(repos[k], RepoLines(s1.lines)[k], remote, hash, user, es[k]);
      }
    } else {
      RunIdempotent(user, Init(false, user, s1.(guard := s1.guard + 1), repos, hash, generated),
                    repos, remote, hash, generated, later);
    }
  }

  /**
   * With the rebuild on mismatch, one retry always suffices: a run that starts
   * with RECURSION_GUARD at most 1 never ends in the guard error, and raises
   * the guard at most once.
   */
  lemma RebuildingRecovers(force: bool, user: string, s: Store, repos: seq<string>,
                           remote: string -> RepoRemote, hash: string -> Digest, generated: string)
    requires s.guard <= 1
    ensures HeavyRunRebuilding(force, user, s, repos, remote, hash, generated).0 != Err(GuardTriggered)
    ensures HeavyRunRebuilding(force, user, s, repos, remote, hash, generated).1.guard <= s.guard + 1
  {
    var s1 := Init(force, user, s, repos, hash, generated);
    if Pass(repos, RepoLines(s1.lines), remote, hash, user).Mismatch? {
      var s2 := Init(true, user, s1.(guard := s1.guard + 1), repos, hash, generated);
      var s3 := Init(force, user, s2, repos, hash, generated);
      assert RepoLines(s3.lines) == ZeroLines(repos, hash);
      FreshPassNeverMismatches(repos, remote, hash, user);
    }
  }
}

=== FILE: heavy_runs.dfy ===
/**
 * What whole runs of the heavy scan compute when they succeed: with
 * FORCE_CACHE every repository is rescanned, and the run fails only on a
 * repository name that does not split into owner and repository.
 */
module HeavyRuns {
  import opened Wrappers
  import opened Strings
  import opened History
  import opened CacheFormat
  import opened Heavy
  import opened HeavyFacts

  /** What a full rescan records for a repository: its fingerprint, probed total and tally. */
  function ScannedEntry(name: string, remote: string -> RepoRemote, hash: string -> Digest, user: string): Entry {
    var t := ScanTally(remote(name), user);
    Entry(hash(name), GetRepoCommitTotal(remote(name)), t.myCommits, t.additions, t.deletions)
  }

  function ScannedEntries(repos: seq<string>, remote: string -> RepoRemote, hash: string -> Digest,
                          user: string): (es: seq<Entry>)
    ensures |es| == |repos|
    ensures forall k :: 0 <= k < |repos| ==> es[k] == ScannedEntry(repos[k], remote, hash, user)
  {
    seq(|repos|, k requires 0 <= k < |repos| => ScannedEntry(repos[k], remote, hash, user))
  }

  /**
   * The fresh line of a repository yields its rescan: with a probed total
   * of 0 the stored zeros are reused, and they equal the tally of an empty
   * scan; otherwise the history is scanned.
   */
  lemma FreshLineScans(name: string, remote: string -> RepoRemote, hash: string -> Digest, user: string)
    requires SlashCount(name) == 1
    ensures RepoStep(name, ZeroLine(hash(name)), remote, hash, user) == StepOk(ScannedEntry(name, remote, hash, user))
  {
    ZeroLineIsEntry(hash(name));
    WrittenLineReconciles(name, Entry(hash(name), 0, 0, 0, 0), remote, hash, user);
  }

  /** A pass over the fresh lines of well-named repositories rescans every one of them. */
  lemma FreshPassScans(repos: seq<string>, remote: string -> RepoRemote, hash: string -> Digest, user: string)
    requires forall k :: 0 <= k < |repos| ==> SlashCount(repos[k]) == 1
    ensures Pass(repos, ZeroLines(repos, hash), remote, hash, user) == Done(ScannedEntries(repos, remote, hash, user))
  {
    var zs := ZeroLines(repos, hash);
    var es := ScannedEntries(repos, remote, hash, user);
    forall k | 0 <= k < |repos|
      ensures RepoStep(repos[k], zs[k], remote, hash, user) == StepOk(es[k])
    {
      FreshLineScans(repos[k], remote, hash, user);
    }
    PassOfSteps(repos, zs, remote, hash, user, es);
  }

  /**
   * With FORCE_CACHE and names that each split into owner and repository,
   * a run rescans every repository: it returns the sums of the rescanned
   * tallies and writes the new header followed by one line per rescan,
   * whatever the file held before.
   */
  lemma ForcedRunScansAll(user: string, s: Store, repos: seq<string>,
                          remote: string -> RepoRemote, hash: string -> Digest, generated: string)
    requires forall k :: 0 <= k < |repos| ==> SlashCount(repos[k]) == 1
    ensures var es := ScannedEntries(repos, remote, hash, user);
            HeavyRun(true, user, s, repos, remote, hash, generated) ==
            (Ok(TotalsOf(es)), Store(true, Header(user, generated) + FormatEntries(es), s.guard))
  {
    var s1 := Init(true, user, s, repos, hash, generated);
    assert RepoLines(s1.lines) == ZeroLines(repos, hash);
    FreshPassScans(repos, remote, hash, user);
    HeavyRunDone(true, user, s, repos, remote, hash, generated, ScannedEntries(repos, remote, hash, user));
  }

  /** With FORCE_CACHE, a run that meets a name without exactly one '/' fails. */
  lemma ForcedRunRejectsName(user: string, s: Store, repos: seq<string>,
                             remote: string -> RepoRemote, hash: string -> Digest, generated: string, k: nat)
    requires k < |repos| && SlashCount(repos[k]) != 1
    ensures HeavyRun(true, user, s, repos, remote, hash, generated).0.Err?
  {
    var s1 := Init(true, user, s, repos, hash, generated);
    var zs := RepoLines(s1.lines);
    assert zs == ZeroLines(repos, hash);
    var p := Pass(repos, zs, remote, hash, user);
    FreshPassNeverMismatches(repos, remote, hash, user);
    if p.Done? {
      PassDone(repos, zs, remote, hash, user, p.entries);
      assert false;
    }
    HeavyRunFails(true, user, s, repos, remote, hash, generated, p.error);
  }

  /** With FORCE_CACHE, a run succeeds exactly when every name splits into owner and repository. */
  lemma ForcedRunSucceeds(user: string, s: Store, repos: seq<string>,
                          remote: string -> RepoRemote, hash: string -> Digest, generated: string)
    ensures HeavyRun(true, user, s, repos, remote, hash, generated).0.Ok? <==>
            forall k :: 0 <= k < |repos| ==> SlashCount(repos[k]) == 1
  {
    if forall k :: 0 <= k < |repos| ==> SlashCount(repos[k]) == 1 {
      ForcedRunScansAll(user, s, repos, remote, hash, generated);
    } else {
      var k :| 0 <= k < |repos| && SlashCount(repos[k]) != 1;
      ForcedRunRejectsName(user, s, repos, remote, hash, generated, k);
    }
  }

  /** A forced run over one repository returns its rescan's counts and records its line. */
  lemma ForcedSingleRun(user: string, s: Store, name: string, remote: string -> RepoRemote,
                        hash: string -> Digest, generated: string, e: Entry)
    requires SlashCount(name) == 1 && ScannedEntry(name, remote, hash, user) == e
    ensures HeavyRun(true, user, s, [name], remote, hash, generated) ==
            (Ok(Totals(e.myCommits, e.additions, e.deletions, e.additions - e.deletions)),
             Store(true, Header(user, generated) + [FormatEntry(e)], s.guard))
  {
    assert HeavyRun(true, user, s, [name], remote, hash, generated) ==
           (Ok(TotalsOf([e])), Store(true, Header(user, generated) + FormatEntries([e]), s.guard)) by {
      assert ScannedEntries([name], remote, hash, user) == [e];
      ForcedRunScansAll(user, s, [name], remote, hash, generated);
    }
    TotalsOfOne(e);
    assert FormatEntries([e]) == [FormatEntry(e)];
  }

  lemma TotalsOfOne(e: Entry)
    ensures TotalsOf([e]) == Totals(e.myCommits, e.additions, e.deletions, e.additions - e.deletions)
  {
    AppendEntry([], e);
    assert [] + [e] == [e];
  }

  /**
   * The heavy-mode scenario: one repository whose probe reports 1 commit
   * and whose history holds one commit of the account, +10/-2. A forced run
   * returns (1, 10, 2, 8) and records the line `sha 1 1 10 2`.
   */
  lemma HeavyModeExample(user: string, s: Store, name: string,
                         remote: string -> RepoRemote, hash: string -> Digest, generated: string)
    requires SlashCount(name) == 1
    requires remote(name) == RepoRemote(Some(1), [History([Commit(Some(user), 10, 2)], false)])
    ensures HeavyRun(true, user, s, [name], remote, hash, generated).0 == Ok(Totals(1, 10, 2, 8))
    ensures RepoLines(HeavyRun(true, user, s, [name], remote, hash, generated).1.lines) ==
            [hash(name) + " 1 1 10 2"]
  {
    var mine := Commit(Some(user), 10, 2);
    assert [] + [mine] + [] == [mine];
    OneAuthoredCommit(remote(name), user, [], mine, []);
    var e := Entry(hash(name), 1, 1, 10, 2);
    assert ScannedEntry(name, remote, hash, user) == e;
    ForcedSingleRun(user, s, name, remote, hash, generated, e);
    RepoLinesAfterHeader(Header(user, generated), [FormatEntry(e)]);
    ExampleLine(hash(name));
  }

  /** The line written for the scenario's entry, character for character. */
  lemma ExampleLine(h: Digest)
    ensures FormatEntry(Entry(h, 1, 1, 10, 2)) == h + " 1 1 10 2"
  {
    assert IntToString(1) == "1";
    assert IntToString(10) == "10";
    assert IntToString(2) == "2";
    var ws := [h, "1", "1", "10", "2"];
    assert JoinSpace(ws[3..]) == "10 2" by { assert ws[3..][1..] == ["2"]; }
    assert JoinSpace(ws[2..]) == "1 10 2" by { assert ws[2..][1..] == ws[3..]; }
    assert JoinSpace(ws[1..]) == "1 1 10 2" by { assert ws[1..][1..] == ws[2..]; }
    assert JoinSpace(ws) == h + " 1 1 10 2";
  }

  /**
   * A repository without a default branch: its probe is 0, so a forced run
   * records the line `sha 0 0 0 0` for it and returns zeros, without error.
   */
  lemma NoDefaultBranchRecordsZeros(user: string, s: Store, name: string,
                                    remote: string -> RepoRemote, hash: string -> Digest, generated: string)
    requires SlashCount(name) == 1 && remote(name).probe.None?
    ensures HeavyRun(true, user, s, [name], remote, hash, generated).0 == Ok(Totals(0, 0, 0, 0))
    ensures RepoLines(HeavyRun(true, user, s, [name], remote, hash, generated).1.lines) == [hash(name) + " 0 0 0 0"]
  {
    var e := Entry(hash(name), 0, 0, 0, 0);
    assert ScannedEntry(name, remote, hash, user) == e;
    ZeroLineIsEntry(hash(name));
    ForcedSingleRun(user, s, name, remote, hash, generated, e);
    RepoLinesAfterHeader(Header(user, generated), [FormatEntry(e)]);
  }
}

=== FILE: history.dfy ===
/**
 * The per-repository remote queries of the heavy scan: the zero-width probe
 * of the default branch's commit count (`get_repo_commit_total`) and the
 * paged walk over its history that credits commits to the tracked account
 * (`scan_repo_history`).
 */
module History {
  import opened Wrappers
  import opened Strings

  /** One commit of the history: the login of its author's account, if any, and its line counts. */
  datatype Commit = Commit(authorLogin: Option<string>, additions: int, deletions: int)

  /** One response of the history query: no default branch, or a page of commits. */
  datatype HistoryPage = NoDefaultBranch | History(commits: seq<Commit>, hasNextPage: bool)

  /**
   * What the remote API answers about one repository: the total commit count
   * of the default branch (None when the repository has no default branch)
   * and the pages of its history, in cursor order.
   */
  datatype RepoRemote = RepoRemote(probe: Option<nat>, history: seq<HistoryPage>)

  /** The result of `scan_repo_history`. */
  datatype Tally = Tally(total: int, myCommits: int, additions: int, deletions: int)

  /** `get_repo_commit_total`: zero exactly when there is no default branch or no commit on it. */
  function GetRepoCommitTotal(repo: RepoRemote): (n: nat)
    ensures n == 0 <==> repo.probe.None? || repo.probe == Some(0)
    ensures repo.probe.Some? ==> n == repo.probe.value
  {
    match repo.probe
    case None => 0
    case Some(total) => total
  }

  /** A commit is credited when its author has an account whose login equals `user` ignoring case. */
  predicate IsMine(c: Commit, user: string) {
    c.authorLogin.Some? && Lower(c.authorLogin.value) == Lower(user)
  }

  /** The commits the history walk visits, in order: it stops at a missing branch or at the last page. */
  function Walked(pages: seq<HistoryPage>): seq<Commit> {
    if pages == [] then []
    else match pages[0]
      case NoDefaultBranch => []
      case History(commits, hasNext) => commits + (if hasNext then Walked(pages[1..]) else [])
  }

  /** The commits credited to `user`, in order. */
  function Mine(cs: seq<Commit>, user: string): (r: seq<Commit>)
    ensures |r| <= |cs|
  {
    if cs == [] then []
    else
      var c := cs[|cs| - 1];
      var rest := Mine(cs[..|cs| - 1], user);
      if IsMine(c, user) then rest + [c] else rest
  }

  /** Exactly the commits of `user` are credited. */
  lemma {:induction false} MineMembers(cs: seq<Commit>, user: string)
    ensures forall c :: c in Mine(cs, user) <==> c in cs && IsMine(c, user)
  {
    if cs != [] {
      MineMembers(cs[..|cs| - 1], user);
      assert cs == cs[..|cs| - 1] + [cs[|cs| - 1]];
    }
  }

  function SumAdditions(cs: seq<Commit>): int {
    if cs == [] then 0 else SumAdditions(cs[..|cs| - 1]) + cs[|cs| - 1].additions
  }

  function SumDeletions(cs: seq<Commit>): int {
    if cs == [] then 0 else SumDeletions(cs[..|cs| - 1]) + cs[|cs| - 1].deletions
  }

  /**
   * What `scan_repo_history` returns: all zeros when the probe reports no
   * commit, otherwise the probed total and the number, additions and
   * deletions of the credited commits among those walked.
   */
  function ScanTally(repo: RepoRemote, user: string): Tally {
    var total := GetRepoCommitTotal(repo);
    if total == 0 then Tally(0, 0, 0, 0)
    else
      var mine := Mine(Walked(repo.history), user);
      Tally(total, |mine|, SumAdditions(mine), SumDeletions(mine))
  }

  /** The credited commits of a walk over two stretches are those of each. */
  lemma {:induction false} MineAppend(a: seq<Commit>, b: seq<Commit>, user: string)
    ensures Mine(a + b, user) == Mine(a, user) + Mine(b, user)
    decreases |b|
  {
    if b == [] {
      assert a + b == a;
    } else {
      assert (a + b)[..|a + b| - 1] == a + b[..|b| - 1];
      MineAppend(a, b[..|b| - 1], user);
    }
  }

  /** A walk that credits no commit adds nothing. */
  lemma {:induction false} NothingMine(cs: seq<Commit>, user: string)
    requires forall k :: 0 <= k < |cs| ==> !IsMine(cs[k], user)
    ensures Mine(cs, user) == []
  {
    if cs != [] {
      NothingMine(cs[..|cs| - 1], user);
    }
  }

  /**
   * Author attribution: one commit of the tracked account among commits of
   * other accounts (or of none) yields one commit and exactly its additions
   * and deletions.
   */
  lemma {:induction false} OneAuthoredCommit(repo: RepoRemote, user: string, before: seq<Commit>, mine: Commit, after: seq<Commit>)
    requires GetRepoCommitTotal(repo) > 0
    requires repo.history == [History(before + [mine] + after, false)]
    requires IsMine(mine, user)
    requires forall k :: 0 <= k < |before| ==> !IsMine(before[k], user)
    requires forall k :: 0 <= k < |after| ==> !IsMine(after[k], user)
    ensures ScanTally(repo, user) == Tally(GetRepoCommitTotal(repo), 1, mine.additions, mine.deletions)
  {
    var cs := before + [mine] + after;
    assert Walked(repo.history) == cs;
    NothingMine(before, user);
    NothingMine(after, user);
    MineAppend(before, [mine], user);
    MineAppend(before + [mine], after, user);
    assert Mine([mine], user) == [mine] by {
      assert [mine][..0] == [];
    }
    assert Mine(cs, user) == [mine];
    assert SumAdditions([mine]) == mine.additions && SumDeletions([mine]) == mine.deletions by {
      assert [mine][..0] == [];
    }
  }

  /** The walk has visited the commits `seen` and is about to request page `p`. */
  predicate WalkState(pages: seq<HistoryPage>, p: nat, seen: seq<Commit>) {
    p <= |pages| && Walked(pages) == seen + Walked(pages[p..])
  }

  /** A page with a default branch and a next page: the walk goes on after it. */
  lemma WalkNext(pages: seq<HistoryPage>, p: nat, seen: seq<Commit>)
    requires WalkState(pages, p, seen) && p < |pages|
    requires pages[p].History? && pages[p].hasNextPage
    ensures WalkState(pages, p + 1, seen + pages[p].commits)
  {
    var q := pages[p..];
    var cs := pages[p].commits;
    var rest := Walked(pages[p + 1..]);
    assert q[0] == pages[p] && q[1..] == pages[p + 1..];
    assert Walked(q) == cs + rest;
    assert seen + (cs + rest) == (seen + cs) + rest;
  }

  /** A page with a default branch and no next page: the walk ends with it. */
  lemma WalkLast(pages: seq<HistoryPage>, p: nat, seen: seq<Commit>)
    requires WalkState(pages, p, seen) && p < |pages|
    requires pages[p].History? && !pages[p].hasNextPage
    ensures Walked(pages) == seen + pages[p].commits
  {
    var q := pages[p..];
    assert q[0] == pages[p];
    assert Walked(q) == pages[p].commits + [];
    assert pages[p].commits + [] == pages[p].commits;
  }

  /** The walk ends at a page without a default branch or after the last page. */
  lemma WalkStop(pages: seq<HistoryPage>, p: nat, seen: seq<Commit>)
    requires WalkState(pages, p, seen) && (p == |pages| || pages[p].NoDefaultBranch?)
    ensures Walked(pages) == seen
  {
    assert Walked(pages[p..]) == [];
  }

  /** The accumulators of the walk after the commits `seen`. */
  predicate Credited(seen: seq<Commit>, user: string, myCommits: int, additions: int, deletions: int) {
    var mine := Mine(seen, user);
    myCommits == |mine| && additions == SumAdditions(mine) && deletions == SumDeletions(mine)
  }

  lemma CreditStep(seen: seq<Commit>, c: Commit, user: string, myCommits: int, additions: int, deletions: int)
    requires Credited(seen, user, myCommits, additions, deletions)
    ensures IsMine(c, user) ==>
              Credited(seen + [c], user, myCommits + 1, additions + c.additions, deletions + c.deletions)
    ensures !IsMine(c, user) ==> Credited(seen + [c], user, myCommits, additions, deletions)
  {
    assert (seen + [c])[..|seen|] == seen;
    var mine := Mine(seen, user);
    if IsMine(c, user) {
      assert Mine(seen + [c], user) == mine + [c];
      assert (mine + [c])[..|mine|] == mine;
    }
  }

  /**
   * The loop over the edges of one history page: every commit of the tracked
   * account adds one commit and its additions and deletions.
   */
  method CreditPage(ghost seen: seq<Commit>, commits: seq<Commit>, user: string,
                    myCommits: int, additions: int, deletions: int)
    returns (myCommits': int, additions': int, deletions': int)
    requires Credited(seen, user, myCommits, additions, deletions)
    ensures Credited(seen + commits, user, myCommits', additions', deletions')
  {
    myCommits', additions', deletions' := myCommits, additions, deletions;
    assert seen + commits[..0] == seen;
    for j := 0 to |commits|
      invariant Credited(seen + commits[..j], user, myCommits', additions', deletions')
    {
      var c := commits[j];
      assert seen + commits[..j + 1] == (seen + commits[..j]) + [c];
      CreditStep(seen + commits[..j], c, user, myCommits', additions', deletions');
      if IsMine(c, user) {  // author.user is set and its login matches, ignoring case
        myCommits' := myCommits' + 1;
        additions' := additions' + c.additions;
        deletions' := deletions' + c.deletions;
      }
    }
    assert commits[..|commits|] == commits;
  }

  /**
   * `scan_repo_history`: no history request when the probe reports no
   * commit; otherwise the pages are walked in cursor order and only the
   * commits of the tracked account are counted and summed.
   */
  method ScanRepoHistory(repo: RepoRemote, user: string) returns (t: Tally)
    ensures t == ScanTally(repo, user)
    ensures GetRepoCommitTotal(repo) == 0 ==> t == Tally(0, 0, 0, 0)
  {
    var total := GetRepoCommitTotal(repo);
    var myCommits, additions, deletions := 0, 0, 0;
    if total == 0 {
      return Tally(0, 0, 0, 0);
    }
    var pages := repo.history;
    ghost var seen: seq<Commit> := [];
    var p := 0;
    while p < |pages|
      invariant WalkState(pages, p, seen)
      invariant Credited(seen, user, myCommits, additions, deletions)
      decreases |pages| - p
    {
      var page := pages[p];
      if page.NoDefaultBranch? {
        break;
      }
      myCommits, additions, deletions := CreditPage(seen, page.commits, user, myCommits, additions, deletions);
      if !page.hasNextPage {
        WalkLast(pages, p, seen);
        seen := seen + page.commits;
        return Tally(total, myCommits, additions, deletions);
      }
      WalkNext(pages, p, seen);
      seen := seen + page.commits;
      p := p + 1;
    }
    WalkStop(pages, p, seen);
    return Tally(total, myCommits, additions, deletions);
  }
}

=== FILE: paging.dfy ===
/**
 * The cursor loops over paginated repository listings. Each request of a
 * loop receives the next page of `pages`; the loop stops after the first
 * page that reports no next page.
 */
module Paging {

  /** The pagination envelope: `totalCount`, the `edges` and `pageInfo.hasNextPage`. */
  datatype Page<T> = Page(totalCount: int, edges: seq<T>, hasNextPage: bool)

  /** A node of the owned-repository listing. */
  datatype OwnedRepo = OwnedRepo(nameWithOwner: string, stargazers: nat)

  /**
   * How many pages a cursor loop requests: every page up to and including
   * the first one without a next page (all of them if none says so).
   */
  function PagesRead<T>(pages: seq<Page<T>>): (n: nat)
    ensures n <= |pages|
    ensures |pages| > 0 ==> n > 0
    ensures forall k :: 0 <= k < n - 1 ==> pages[k].hasNextPage
    ensures n > 0 && n < |pages| ==> !pages[n - 1].hasNextPage
  {
    if pages == [] then 0
    else if !pages[0].hasNextPage then 1
    else 1 + PagesRead(pages[1..])
  }

  /** Page `p` is requested: the loop stops after it, or goes on to the next one. */
  lemma {:induction false} PagesReadStep<T>(pages: seq<Page<T>>, p: nat)
    requires p < PagesRead(pages)
    ensures !pages[p].hasNextPage || p + 1 == |pages| ==> PagesRead(pages) == p + 1
    ensures pages[p].hasNextPage && p + 1 < |pages| ==> p + 1 < PagesRead(pages)
    decreases p
  {
    if p > 0 {
      PagesReadStep(pages[1..], p - 1);
    }
  }

  /** The edges of `pages`, in page order. */
  function AllEdges<T>(pages: seq<Page<T>>): seq<T> {
    if pages == [] then [] else AllEdges(pages[..|pages| - 1]) + pages[|pages| - 1].edges
  }

  /** The stars of a sequence of repositories. */
  function TotalStars(repos: seq<OwnedRepo>): nat {
    if repos == [] then 0 else TotalStars(repos[..|repos| - 1]) + repos[|repos| - 1].stargazers
  }

  lemma {:induction false} TotalStarsAppend(a: seq<OwnedRepo>, b: seq<OwnedRepo>)
    ensures TotalStars(a + b) == TotalStars(a) + TotalStars(b)
    decreases |b|
  {
    if b != [] {
      assert (a + b)[..|a + b| - 1] == a + b[..|b| - 1];
      TotalStarsAppend(a, b[..|b| - 1]);
    } else {
      assert a + b == a;
    }
  }

  /** Stars are summed over every page read, edge by edge. */
  lemma {:induction false} StarsOfPages(pages: seq<Page<OwnedRepo>>)
    ensures TotalStars(AllEdges(pages)) ==
            if pages == [] then 0
            else TotalStars(AllEdges(pages[..|pages| - 1])) + TotalStars(pages[|pages| - 1].edges)
  {
    if pages != [] {
      TotalStarsAppend(AllEdges(pages[..|pages| - 1]), pages[|pages| - 1].edges);
    }
  }

  /** The loop over the edges of one page of owned repositories. */
  method AddStars(stars: nat, edges: seq<OwnedRepo>) returns (stars': nat)
    ensures stars' == stars + TotalStars(edges)
  {
    stars' := stars;
    for j := 0 to |edges|
      invariant stars' == stars + TotalStars(edges[..j])
    {
      assert edges[..j + 1] == edges[..j] + [edges[j]];
      TotalStarsAppend(edges[..j], [edges[j]]);
      stars' := stars' + edges[j].stargazers;
    }
    assert edges[..|edges|] == edges;
  }

  /**
   * `get_repos_and_stars`: the owned-repository count and the
   * contributed-repository count are the `totalCount` of the last page
   * requested; the stars are summed over every repository of every page
   * requested.
   */
  method GetReposAndStars(owned: seq<Page<OwnedRepo>>, contributed: seq<Page<()>>)
    returns (repoCount: int, stars: nat, contributedCount: int)
    requires |owned| > 0 && |contributed| > 0
    ensures repoCount == owned[PagesRead(owned) - 1].totalCount
    ensures stars == TotalStars(AllEdges(owned[..PagesRead(owned)]))
    ensures contributedCount == contributed[PagesRead(contributed) - 1].totalCount
  {
    stars := 0;
    var p := 0;
    while true
      invariant 0 <= p < PagesRead(owned)
      invariant stars == TotalStars(AllEdges(owned[..p]))
      decreases |owned| - p
    {
      var page := owned[p];
      repoCount := page.totalCount;
      stars := AddStars(stars, page.edges);
      assert owned[..p + 1][..p] == owned[..p];
      StarsOfPages(owned[..p + 1]);
      PagesReadStep(owned, p);
      if !page.hasNextPage || p + 1 == |owned| {
        break;
      }
      p := p + 1;
    }

    var q := 0;
    while true
      invariant 0 <= q < PagesRead(contributed)
      decreases |contributed| - q
    {
      contributedCount := contributed[q].totalCount;
      PagesReadStep(contributed, q);
      if !contributed[q].hasNextPage || q + 1 == |contributed| {
        break;
      }
      q := q + 1;
    }
  }

  /** The loop over the edges of one page of names: each name is appended in order. */
  method AppendNames(names: seq<string>, edges: seq<string>) returns (names': seq<string>)
    ensures names' == names + edges
  {
    names' := names;
    for j := 0 to |edges|
      invariant names' == names + edges[..j]
    {
      assert edges[..j + 1] == edges[..j] + [edges[j]];
      names' := names' + [edges[j]];
    }
    assert edges[..|edges|] == edges;
  }

  /** `collect_repo_full_names`: every name of every page requested, in page order. */
  method CollectRepoFullNames(pages: seq<Page<string>>) returns (names: seq<string>)
    ensures names == AllEdges(pages[..PagesRead(pages)])
  {
    names := [];
    var p := 0;
    while p < |pages|
      invariant p <= PagesRead(pages)
      invariant p < |pages| ==> p < PagesRead(pages)
      invariant names == AllEdges(pages[..p])
      decreases |pages| - p
    {
      var page := pages[p];
      names := AppendNames(names, page.edges);
      assert pages[..p + 1][..p] == pages[..p];
      PagesReadStep(pages, p);
      if !page.hasNextPage {
        return;
      }
      p := p + 1;
    }
  }
}

=== FILE: retry.dfy ===
/**
 * The retry loop of `gql`: one GraphQL request retried under a fixed budget
 * of attempts. The network is an oracle: `outcome(k)` is what the k-th attempt
 * (counting from 1) receives. The sleeps between attempts are not modelled.
 */
module Retry {
  import opened Wrappers
  import opened Strings

  /** The decoded body of an HTTP response. */
  datatype Body<D> = NotJson | Json(errors: seq<string>, data: D)

  /** What one attempt receives: a timeout or connection error, or a response. */
  datatype Attempt<D> = NetworkError | Response(status: int, body: Body<D>)

  /** The exception `gql` raises once the budget is spent. */
  datatype Failure =
    | NetworkFailure              // requests.Timeout / requests.ConnectionError
    | HttpFailure(status: int)    // "<tag> failed: <status> ..."
    | InvalidJson                 // r.json() raised
    | GraphQLFailure(messages: string)  // "<tag> GraphQL errors: ..."
    | NoAttempt                   // "<tag> failed without exception"

  /** An attempt whose data `gql` returns: status 200 and no GraphQL errors. */
  predicate Succeeds<D>(a: Attempt<D>) {
    a.Response? && a.status == 200 && a.body.Json? && a.body.errors == []
  }

  /** `' | '.join(messages)`. */
  function JoinMessages(messages: seq<string>): string {
    if messages == [] then ""
    else if |messages| == 1 then messages[0]
    else messages[0] + " | " + JoinMessages(messages[1..])
  }

  /** `sub in s`. */
  predicate Contains(s: string, sub: string)
    decreases |s|
  {
    (|sub| <= |s| && s[..|sub|] == sub) || (s != "" && Contains(s[1..], sub))
  }

  /** The rate-limit test on the joined GraphQL error messages. */
  predicate RateLimited(messages: seq<string>) {
    Contains(Lower(JoinMessages(messages)), "rate limit")
  }

  /** The exception raised for a failed attempt that is not retried. */
  function FailureOf<D>(a: Attempt<D>): (f: Failure)
    requires !Succeeds(a)
    ensures f != NoAttempt
    ensures f.HttpFailure? <==> a.Response? && a.status != 200
    ensures f.NetworkFailure? <==> a.NetworkError?
    ensures f == InvalidJson <==> a.Response? && a.status == 200 && a.body.NotJson?
    ensures f.GraphQLFailure? <==> a.Response? && a.status == 200 && a.body.Json?
    ensures f.GraphQLFailure? ==> a.body.errors != [] && f.messages == JoinMessages(a.body.errors)
  {
    match a
    case NetworkError => NetworkFailure
    case Response(status, body) =>
      if status != 200 then HttpFailure(status)
      else if body.NotJson? then InvalidJson
      else GraphQLFailure(JoinMessages(body.errors))
  }

  /**
   * `gql`: at most `maxRetries` attempts; the data of the first attempt that
   * succeeds, or, when none of them does, the exception of the last one.
   * Every kind of failure is retried while attempts remain: the RuntimeErrors
   * raised for a bad status or for GraphQL errors are caught by the generic
   * handler and retried like network errors. With no attempt allowed the
   * call fails without an exception of its own.
   */
  method Gql<D>(maxRetries: int, outcome: nat -> Attempt<D>) returns (r: Result<D, Failure>, attempts: nat)
    ensures maxRetries <= 0 ==> r == Err(NoAttempt) && attempts == 0
    ensures maxRetries > 0 ==> 1 <= attempts <= maxRetries
    ensures forall k :: 1 <= k < attempts ==> !Succeeds(outcome(k))
    ensures r.Ok? ==> Succeeds(outcome(attempts)) && r.value == outcome(attempts).body.data
    ensures r.Err? && maxRetries > 0 ==>
              attempts == maxRetries && !Succeeds(outcome(attempts)) && r.error == FailureOf(outcome(attempts))
  {
    var attempt := 1;
    while attempt <= maxRetries
      invariant 1 <= attempt
      invariant attempt > 1 ==> attempt <= maxRetries
      invariant forall k :: 1 <= k < attempt ==> !Succeeds(outcome(k))
      decreases maxRetries + 1 - attempt
    {
      var failure: Failure;
      var a := outcome(attempt);
      if a.NetworkError? {
        failure := NetworkFailure;
      } else if a.status == 502 && attempt < maxRetries {
        // transient gateway error
        attempt := attempt + 1;
        continue;
      } else if a.status != 200 {
        failure := HttpFailure(a.status);
      } else if a.body.NotJson? {
        failure := InvalidJson;
      } else if a.body.errors == [] {
        return Ok(a.body.data), attempt;
      } else if RateLimited(a.body.errors) && attempt < maxRetries {
        attempt := attempt + 1;
        continue;
      } else {
        failure := GraphQLFailure(JoinMessages(a.body.errors));
      }
      // the exception handlers: retry while attempts remain, else re-raise
      if attempt < maxRetries {
        attempt := attempt + 1;
        continue;
      }
      return Err(failure), attempt;
    }
    // The source's fallback re-raise of the last exception is reached only
    // when the loop made no attempt at all.
    return Err(NoAttempt), 0;
  }
}

=== FILE: strings.dfy ===
/**
 * The few Python string operations the profile updater relies on, over
 * `string` (a sequence of Unicode scalar values):
 *   - `str.split()` with no argument (split on runs of whitespace),
 *   - `str.strip()`,
 *   - `' '.join(...)`,
 *   - `f"{n}"` and `int(s)` for integers,
 *   - `str.lower()` used to compare logins.
 */
module Strings {
  import opened Wrappers

  /**
   * The ASCII characters `str.isspace()` accepts, which `str.split()` and
   * `str.strip()` treat as whitespace: the controls 0x09-0x0D and 0x1C-0x1F,
   * and the space. The Unicode separators beyond ASCII are not included.
   */
  predicate IsSpace(c: char) {
    '\t' <= c <= '\r' || '\U{001C}' <= c <= ' '
  }

  /** A word as `str.split()` produces it: non-empty, without whitespace. */
  predicate IsWord(w: string) {
    |w| > 0 && forall i :: 0 <= i < |w| ==> !IsSpace(w[i])
  }

  function TrimLeft(s: string): (r: string)
    ensures |r| <= |s|
    ensures r == "" || !IsSpace(r[0])
  {
    if s == "" || !IsSpace(s[0]) then s else TrimLeft(s[1..])
  }

  function TrimRight(s: string): (r: string)
    ensures |r| <= |s| && r == s[..|r|]
    ensures r == "" || !IsSpace(r[|r| - 1])
  {
    if s == "" || !IsSpace(s[|s| - 1]) then s else TrimRight(s[..|s| - 1])
  }

  /** `r` is the slice of `s` at `i`, and everything of `s` around it is whitespace. */
  predicate SpaceAround(s: string, i: int, r: string) {
    && 0 <= i <= |s| - |r|
    && r == s[i..i + |r|]
    && (forall k :: 0 <= k < i ==> IsSpace(s[k]))
    && (forall k :: i + |r| <= k < |s| ==> IsSpace(s[k]))
  }

  /**
   * `str.strip()`: the slice of the input left once the whitespace at both
   * ends is removed. It neither starts nor ends with whitespace, and
   * everything of the input outside it is whitespace.
   */
  function Strip(s: string): (r: string)
    ensures |r| <= |s|
    ensures r == "" || (!IsSpace(r[0]) && !IsSpace(r[|r| - 1]))
    ensures exists i :: SpaceAround(s, i, r)
  {
    TrimAround(s);
    TrimRight(TrimLeft(s))
  }

  /** `TrimLeft` drops a prefix of whitespace. */
  lemma {:induction false} TrimLeftDrops(s: string)
    ensures TrimLeft(s) == s[|s| - |TrimLeft(s)|..]
    ensures forall k :: 0 <= k < |s| - |TrimLeft(s)| ==> IsSpace(s[k])
    decreases |s|
  {
    if s != "" && IsSpace(s[0]) {
      TrimLeftDrops(s[1..]);
      forall k | 1 <= k < |s| - |TrimLeft(s)|
        ensures IsSpace(s[k])
      {
        assert s[k] == s[1..][k - 1];
      }
    }
  }

  /** `TrimRight` drops a suffix of whitespace. */
  lemma {:induction false} TrimRightDrops(s: string)
    ensures forall k :: |TrimRight(s)| <= k < |s| ==> IsSpace(s[k])
    decreases |s|
  {
    if s != "" && IsSpace(s[|s| - 1]) {
      TrimRightDrops(s[..|s| - 1]);
      forall k | |TrimRight(s)| <= k < |s| - 1
        ensures IsSpace(s[k])
      {
        assert s[k] == s[..|s| - 1][k];
      }
    }
  }

  lemma TrimAround(s: string)
    ensures SpaceAround(s, |s| - |TrimLeft(s)|, TrimRight(TrimLeft(s)))
  {
    var t := TrimLeft(s);
    var r := TrimRight(t);
    var i := |s| - |t|;
    TrimLeftDrops(s);
    TrimRightDrops(t);
    SliceOfSlice(s, t, r, i);
    SpacesAfterTrim(s, t, r, i);
  }

  lemma SliceOfSlice(s: string, t: string, r: string, i: int)
    requires 0 <= i <= |s| && t == s[i..] && |r| <= |t| && r == t[..|r|]
    ensures r == s[i..i + |r|]
  {
  }

  lemma SpacesAfterTrim(s: string, t: string, r: string, i: int)
    requires 0 <= i <= |s| && t == s[i..] && |r| <= |t|
    requires forall k :: |r| <= k < |t| ==> IsSpace(t[k])
    ensures forall k :: i + |r| <= k < |s| ==> IsSpace(s[k])
  {
    forall k | i + |r| <= k < |s|
      ensures IsSpace(s[k])
    {
      assert s[k] == t[k - i];
    }
  }

  /** The longest prefix of `s` without whitespace. */
  function TakeWord(s: string): (w: string)
    ensures |w| <= |s|
    ensures forall i :: 0 <= i < |w| ==> !IsSpace(w[i])
    ensures s != "" && !IsSpace(s[0]) ==> |w| > 0
  {
    if s == "" || IsSpace(s[0]) then "" else [s[0]] + TakeWord(s[1..])
  }

  /** `str.split()`: the maximal runs of non-whitespace characters, in order. */
  function SplitWs(s: string): (ws: seq<string>)
    ensures forall k :: 0 <= k < |ws| ==> IsWord(ws[k])
    decreases |s|
  {
    var t := TrimLeft(s);
    if t == "" then []
    else
      var w := TakeWord(t);
      [w] + SplitWs(t[|w|..])
  }

  /** `' '.join(ws)`. */
  function JoinSpace(ws: seq<string>): string {
    if ws == [] then ""
    else if |ws| == 1 then ws[0]
    else ws[0] + " " + JoinSpace(ws[1..])
  }

  lemma {:induction false} TakeWordOfWord(w: string, rest: string)
    requires IsWord(w)
    requires rest == "" || IsSpace(rest[0])
    ensures TakeWord(w + rest) == w
    decreases |w|
  {
    if |w| > 1 {
      assert (w + rest)[1..] == w[1..] + rest;
      TakeWordOfWord(w[1..], rest);
    } else {
      assert (w + rest)[1..] == rest;
    }
  }

  lemma {:induction false} SplitLeadingSpace(s: string)
    requires s != "" && IsSpace(s[0])
    ensures SplitWs(s) == SplitWs(s[1..])
  {
  }

  /**
   * Splitting a word followed by any whitespace character and more text
   * yields the word first: a tab, a newline or a space separates alike.
   */
  lemma {:induction false} SplitWordThen(w: string, c: char, rest: string)
    requires IsWord(w) && IsSpace(c)
    ensures SplitWs(w + [c] + rest) == [w] + SplitWs(rest)
  {
    var s := w + [c] + rest;
    assert TrimLeft(s) == s;
    assert w + [c] + rest == w + ([c] + rest);
    TakeWordOfWord(w, [c] + rest);
    assert s[|w|..] == [c] + rest;
    SplitLeadingSpace([c] + rest);
    assert ([c] + rest)[1..] == rest;
  }

  lemma {:induction false} SplitWord(w: string)
    requires IsWord(w)
    ensures SplitWs(w) == [w]
  {
    assert TrimLeft(w) == w;
    TakeWordOfWord(w, "");
    assert w + "" == w;
  }

  /** `' '.join` then `split()` gives the words back. */
  lemma {:induction false} SplitJoin(ws: seq<string>)
    requires forall k :: 0 <= k < |ws| ==> IsWord(ws[k])
    ensures SplitWs(JoinSpace(ws)) == ws
  {
    if ws == [] {
    } else if |ws| == 1 {
      SplitWord(ws[0]);
    } else {
      SplitJoin(ws[1..]);
      SplitWordThen(ws[0], ' ', JoinSpace(ws[1..]));
      assert ws[0] + [' '] + JoinSpace(ws[1..]) == JoinSpace(ws);
    }
  }

  /** Joining one more word onto a joined sequence. */
  lemma {:induction false} JoinSnoc(ws: seq<string>, w: string)
    ensures JoinSpace(ws + [w]) == if ws == [] then w else JoinSpace(ws) + " " + w
  {
    if |ws| > 1 {
      assert (ws + [w])[1..] == ws[1..] + [w];
      JoinSnoc(ws[1..], w);
    } else if |ws| == 1 {
      assert (ws + [w])[1..] == [w];
    }
  }

  /** A line made of a first word, a space and more text starts with that word. */
  lemma {:induction false} HeadOfLine(h: string, s: string)
    requires IsWord(h)
    requires s == h || (|s| > |h| && s[..|h| + 1] == h + " ")
    ensures TakeWord(s) == h
  {
    if s == h {
      TakeWordOfWord(h, "");
      assert h + "" == h;
    } else {
      var rest := s[|h|..];
      assert s[..|h|] == h;
      assert s == s[..|h|] + rest;
      assert rest[0] == s[|h|] == (h + " ")[|h|] == ' ';
      TakeWordOfWord(h, rest);
    }
  }

  // ---------------------------------------------------------------------
  // Integers: f"{n}" and int(s)

  function DigitChar(d: nat): char
    requires d < 10
  {
    "0123456789"[d]
  }

  predicate IsDigit(c: char) {
    '0' <= c <= '9'
  }

  predicate AllDigits(s: string) {
    forall i :: 0 <= i < |s| ==> IsDigit(s[i])
  }

  /** Decimal digits of `n`, most significant first, without leading zeros. */
  function Digits(n: nat): (s: string)
    ensures |s| > 0 && AllDigits(s)
    ensures s[0] == '0' ==> n == 0
    decreases n
  {
    if n < 10 then [DigitChar(n)] else Digits(n / 10) + [DigitChar(n % 10)]
  }

  function DigitsValue(s: string): nat
    requires AllDigits(s)
  {
    if s == "" then 0 else DigitsValue(s[..|s| - 1]) * 10 + (s[|s| - 1] as int - '0' as int)
  }

  /**
   * `f"{i}"`: a leading '-' exactly for negative numbers, then decimal digits
   * without a leading zero, so "0" is the only rendering that starts with '0'.
   */
  function IntToString(i: int): (s: string)
    ensures IsWord(s)
    ensures i >= 0 ==> AllDigits(s) && (s[0] == '0' ==> s == "0")
    ensures i < 0 ==> |s| > 1 && s[0] == '-' && AllDigits(s[1..]) && s[1] != '0'
  {
    var s := if i < 0 then "-" + Digits(-i) else Digits(i);
    assert forall k :: 0 <= k < |s| ==> s[k] == '-' || IsDigit(s[k]);
    s
  }

  /**
   * `int(s)` on a token without surrounding whitespace: an optional '-' and
   * at least one ASCII digit; anything else is Python's ValueError (None).
   */
  function ParseInt(s: string): (r: Option<int>)
    ensures r.Some? ==> |s| > 0
  {
    if |s| > 1 && s[0] == '-' && AllDigits(s[1..]) then Some(0 - DigitsValue(s[1..]))
    else if |s| > 0 && AllDigits(s) then Some(DigitsValue(s))
    else None
  }

  lemma {:induction false} DigitsRoundTrip(n: nat)
    ensures DigitsValue(Digits(n)) == n
    decreases n
  {
    var s := Digits(n);
    if n >= 10 {
      DigitsRoundTrip(n / 10);
      assert s[..|s| - 1] == Digits(n / 10);
    }
  }

  lemma ParseNegative(d: string)
    requires |d| > 0 && AllDigits(d)
    ensures ParseInt("-" + d) == Some(0 - DigitsValue(d))
  {
    assert ("-" + d)[1..] == d;
  }

  lemma ParseNatural(d: string)
    requires |d| > 0 && AllDigits(d)
    ensures ParseInt(d) == Some(DigitsValue(d))
  {
    assert IsDigit(d[0]);
  }

  lemma NegativeRoundTrip(n: nat)
    requires n > 0
    ensures ParseInt("-" + Digits(n)) == Some(0 - n)
  {
    DigitsRoundTrip(n);
    ParseNegative(Digits(n));
  }

  lemma NaturalRoundTrip(n: nat)
    ensures ParseInt(Digits(n)) == Some(n)
  {
    DigitsRoundTrip(n);
    ParseNatural(Digits(n));
  }

  /** `int(f"{i}") == i`. */
  lemma IntRoundTrip(i: int)
    ensures ParseInt(IntToString(i)) == Some(i)
  {
    var s := if i < 0 then "-" + Digits(-i) else Digits(i);
    assert IntToString(i) == s;
    assert ParseInt(s) == Some(i) by {
      if i < 0 { NegativeRoundTrip(-i); } else { NaturalRoundTrip(i); }
    }
  }
 // ---------------------------------------------------------------------
  // Case-insensitive comparison of logins

  function LowerChar(c: char): char {
    if 'A' <= c <= 'Z' then (c as int - 'A' as int + 'a' as int) as char else c
  }

  /** `s.lower()` on ASCII letters; every other character is kept. */
  function Lower(s: string): (r: string)
    ensures |r| == |s|
    ensures forall i :: 0 <= i < |s| ==> r[i] == LowerChar(s[i])
  {
    if s == "" then "" else [LowerChar(s[0])] + Lower(s[1..])
  }
}

=== FILE: text.dfy ===
/**
 * Text helpers of the card renderer: value truncation, the approximate
 * pixel width of a monospaced text, and the greedy word wrap of the tagline.
 */
module Text {
  import opened Wrappers
  import opened Strings

  /** Approximate width of one character, in pixels. */
  const CharWidthPx := 9

  /** The single-character ellipsis appended by truncation. */
  const Ellipsis := '…'

  /**
   * `truncate_text`: the text itself when it is short enough; otherwise a
   * prefix of it followed by an ellipsis, `maxChars` long (one character
   * when `maxChars` is 1 or less).
   */
  function TruncateText(text: string, maxChars: int): (r: string)
    ensures |text| <= maxChars ==> r == text
    ensures |text| > maxChars ==> |r| == (if maxChars <= 1 then 1 else maxChars)
    ensures |text| > maxChars ==> r[|r| - 1] == Ellipsis && r[..|r| - 1] == text[..|r| - 1]
    ensures maxChars >= 1 ==> (r == text <==> |text| <= maxChars)
  {
    if |text| <= maxChars then text
    else if maxChars <= 1 then [Ellipsis]
    else text[..maxChars - 1] + [Ellipsis]
  }

  /** `approx_text_px`: every character counts `CharWidthPx` pixels. */
  function ApproxTextPx(text: string): nat {
    |text| * CharWidthPx
  }

  /**
   * The width of two texts joined by a space is their widths plus one
   * character's: the wrap's fit test on `cur + ' ' + w` costs exactly the
   * pending line, the word and one space.
   */
  lemma TextPxJoin(a: string, b: string)
    ensures ApproxTextPx(a + " " + b) == ApproxTextPx(a) + CharWidthPx + ApproxTextPx(b)
  {
  }

  /** A text fits a positive or non-positive width exactly when it has at most `maxW / CharWidthPx` characters. */
  lemma FitsByChars(text: string, maxW: int)
    ensures Fits(text, maxW) <==> |text| <= maxW / CharWidthPx
  {
  }

  predicate Fits(line: string, maxW: int) {
    ApproxTextPx(line) <= maxW
  }

  /** `line` is `head`, or starts with `head` followed by a space. */
  predicate StartsWithWord(line: string, head: string) {
    line == head || (|line| > |head| && line[..|head| + 1] == head + " ")
  }

  /** No line could also have taken the first word of the next one. */
  predicate Greedy(lines: seq<string>, maxW: int) {
    forall k :: 0 <= k < |lines| - 1 ==> !Fits(lines[k] + " " + TakeWord(lines[k + 1]), maxW)
  }

  /** Every line fits, or is a single word too wide to fit. */
  predicate LinesFit(lines: seq<string>, maxW: int) {
    forall k :: 0 <= k < |lines| ==> Fits(lines[k], maxW) || IsWord(lines[k])
  }

  /** The lines emitted so far followed by the pending line `cur`, if any. */
  function Pending(lines: seq<string>, cur: string): seq<string> {
    if cur == "" then lines else lines + [cur]
  }

  /**
   * The state of the wrap loop after the first `i` words: `lines` are the
   * finished lines, `cur` the pending one and `head` its first word.
   */
  ghost predicate WrapState(words: seq<string>, i: nat, lines: seq<string>, cur: string, head: string, maxW: int) {
    && i <= |words|
    && (i == 0 ==> cur == "" && lines == [])
    && (i > 0 ==> IsWord(head) && StartsWithWord(cur, head))
    && JoinSpace(Pending(lines, cur)) == JoinSpace(words[..i])
    && LinesFit(lines, maxW)
    && (cur != "" ==> Fits(cur, maxW) || IsWord(cur))
    && Greedy(lines, maxW)
    && (|lines| > 0 ==> !Fits(lines[|lines| - 1] + " " + head, maxW))
  }

  /** The first word opens the pending line, whether it fits or not. */
  lemma WrapFirst(words: seq<string>, maxW: int)
    requires |words| > 0 && IsWord(words[0])
    ensures WrapState(words, 1, [], words[0], words[0], maxW)
  {
    assert words[..1] == [words[0]];
  }

  /** Extending the last line by a word extends the joined text by that word. */
  lemma JoinExtend(lines: seq<string>, cur: string, w: string)
    ensures JoinSpace(lines + [cur + " " + w]) == JoinSpace(lines + [cur]) + " " + w
  {
    JoinSnoc(lines, cur);
    JoinSnoc(lines, cur + " " + w);
    if lines != [] {
      assert JoinSpace(lines) + " " + (cur + " " + w) == JoinSpace(lines) + " " + cur + " " + w;
    }
  }

  /** A line that starts with `head` still does after a word is appended. */
  lemma StartsWithExtend(cur: string, head: string, w: string)
    requires StartsWithWord(cur, head)
    ensures StartsWithWord(cur + " " + w, head)
  {
    var test := cur + " " + w;
    if cur == head {
      assert test[..|head| + 1] == (head + " " + w)[..|head| + 1];
    } else {
      assert test[..|head| + 1] == cur[..|head| + 1];
    }
  }

  /** A word that fits is appended to the pending line. */
  lemma WrapExtend(words: seq<string>, i: nat, lines: seq<string>, cur: string, head: string, maxW: int)
    requires 0 < i < |words| && IsWord(words[i])
    requires WrapState(words, i, lines, cur, head, maxW)
    requires Fits(cur + " " + words[i], maxW)
    ensures WrapState(words, i + 1, lines, cur + " " + words[i], head, maxW)
  {
    var w := words[i];
    assert words[..i + 1] == words[..i] + [w];
    JoinSnoc(words[..i], w);
    JoinExtend(lines, cur, w);
    StartsWithExtend(cur, head, w);
  }

  /** Closing a pending line keeps the wrap greedy when that line's first word did not fit. */
  lemma GreedyClose(lines: seq<string>, cur: string, head: string, maxW: int)
    requires Greedy(lines, maxW)
    requires |lines| > 0 ==> !Fits(lines[|lines| - 1] + " " + head, maxW)
    requires TakeWord(cur) == head
    ensures Greedy(lines + [cur], maxW)
  {
    var ls := lines + [cur];
    forall k | 0 <= k < |ls| - 1
      ensures !Fits(ls[k] + " " + TakeWord(ls[k + 1]), maxW)
    {
      if k + 1 < |lines| {
        assert ls[k] == lines[k] && ls[k + 1] == lines[k + 1];
      }
    }
  }

  /** A word that does not fit closes the pending line and opens the next. */
  lemma WrapBreak(words: seq<string>, i: nat, lines: seq<string>, cur: string, head: string, maxW: int)
    requires 0 < i < |words| && IsWord(words[i])
    requires WrapState(words, i, lines, cur, head, maxW)
    requires !Fits(cur + " " + words[i], maxW)
    ensures WrapState(words, i + 1, lines + [cur], words[i], words[i], maxW)
  {
    var w := words[i];
    assert words[..i + 1] == words[..i] + [w];
    JoinSnoc(words[..i], w);
    HeadOfLine(head, cur);
    GreedyClose(lines, cur, head, maxW);
    JoinSnoc(lines + [cur], w);
    assert LinesFit(lines + [cur], maxW) by {
      assert forall k :: 0 <= k < |lines| ==> (lines + [cur])[k] == lines[k];
    }
  }

  /** Once every word is placed, the pending line is the last line. */
  lemma WrapFinish(words: seq<string>, lines: seq<string>, cur: string, head: string, maxW: int)
    requires |words| > 0
    requires WrapState(words, |words|, lines, cur, head, maxW)
    ensures cur != ""
    ensures JoinSpace(lines + [cur]) == JoinSpace(words)
    ensures LinesFit(lines + [cur], maxW) && Greedy(lines + [cur], maxW)
  {
    assert words[..|words|] == words;
    HeadOfLine(head, cur);
    GreedyClose(lines, cur, head, maxW);
    assert LinesFit(lines + [cur], maxW) by {
      assert forall k :: 0 <= k < |lines| ==> (lines + [cur])[k] == lines[k];
    }
  }

  /**
   * The greedy loop of `wrap_tagline` over the words of the tagline: every
   * word goes onto the pending line when the line still fits with it, and
   * otherwise opens the next line.
   */
  method WrapWords(words: seq<string>, maxW: int) returns (lines: seq<string>)
    requires |words| > 0
    requires forall k :: 0 <= k < |words| ==> IsWord(words[k])
    ensures |lines| > 0
    ensures JoinSpace(lines) == JoinSpace(words)
    ensures LinesFit(lines, maxW)
    ensures Greedy(lines, maxW)
  {
    lines := [];
    var cur := "";
    ghost var head := "";
    for i := 0 to |words|
      invariant WrapState(words, i, lines, cur, head, maxW)
    {
      var w := words[i];
      // (cur + ' ' + w).strip(): the word alone while the line is empty
      var test := if cur == "" then w else cur + " " + w;
      if ApproxTextPx(test) <= maxW {
        if cur == "" {
          WrapFirst(words, maxW);
          head := w;
        } else {
          WrapExtend(words, i, lines, cur, head, maxW);
        }
        cur := test;
      } else {
        if cur != "" {
          WrapBreak(words, i, lines, cur, head, maxW);
          lines := lines + [cur];
        } else {
          WrapFirst(words, maxW);
        }
        cur := w;
        head := w;
      }
    }
    WrapFinish(words, lines, cur, head, maxW);
    lines := lines + [cur];
  }

  /**
   * The word wrap of `wrap_tagline`. None means the tagline is left alone
   * (no positive width, nothing but whitespace, or it already fits); otherwise
   * the lines it is broken into. Joined with single spaces they give back the
   * words of the tagline in order; every line fits or is a single word; and
   * the wrap is greedy: no line could also have taken the first word of the
   * next one.
   */
  method WrapTagline(text: string, maxW: int) returns (r: Option<seq<string>>)
    ensures r.None? <==> maxW <= 0 || Strip(text) == "" || ApproxTextPx(Strip(text)) <= maxW
    ensures r.Some? ==> |r.value| > 0
    ensures r.Some? ==> JoinSpace(r.value) == JoinSpace(SplitWs(Strip(text)))
    ensures r.Some? ==> LinesFit(r.value, maxW)
    ensures r.Some? ==> Greedy(r.value, maxW)
  {
    if maxW <= 0 {
      return None;
    }
    var original := Strip(text);
    if original == "" || ApproxTextPx(original) <= maxW {
      return None;
    }
    var words := SplitWs(original);
    assert TrimLeft(original) == original;
    assert words != [];
    var lines := WrapWords(words, maxW);
    return Some(lines);
  }
}

=== FILE: wrappers.dfy ===
/** Option and Result, used for Python's `None` returns and raised exceptions. */
module Wrappers {
  datatype Option<+T> = None | Some(value: T)

  datatype Result<+R, +E> = Ok(value: R) | Err(error: E)
}
